=== FILE: README.md ===
# vbim-viewer core in Dafny

A model of the sequential logic at the centre of the vbim-viewer, a three.js viewer for
building models, with proofs about that model. It covers four pieces:

- **BufferReader**: the binary cursor. It holds an immutable byte buffer, an offset that
  starts at 0, and fixed-width little-endian reads of 8, 16, 32 and 64 bits. It also has
  a length-prefixed string read, a raw slice read, and a `littleEndian` flag that nothing
  consults.
- **The mesh-collection decoder** (`Loader._parseMeshCollection`). A collection is a
  name, then a record count, then the records. Each record holds a byte count, an id, a
  topology, positions, index triples, an optional normals section and an optional UV
  section. The decoder stores each record's mesh under its id in `meshCollections`.
  Position and normal x components are negated as they are read.
- **The greedy render-batch packer** (`RenderBatch.tryAdd` and
  `Loader.getRenderBatches`). A batch is capped at 1000 instances. It is also capped at a
  total effective triangle cost below 1,000,000, for integer triangle counts (a missing
  or non-numeric count is outside the model; see "## Left out"). An instance that
  declares zero triangles costs 1000. The collection-id dedupe in `Loader.load` is included too.
- **The progressive drawing scheduler** in `ModelRenderer`. The camera-motion detector,
  the `_drawProgressively` generator, `_drawProgressivelyAbort`, `_darwSingleFrame` and
  `load`'s append-and-restart form an explicit state machine. Each frame emits `Show(i)`
  and `Hide(i)` effects for batch indices.

Files, in dependency order:

| file | module | contents |
|---|---|---|
| wrappers.dfy | `Wrappers` | `Option`, `Result` |
| little_endian.dfy | `LittleEndian` | bytes, little-endian and two's-complement values, and their encodings |
| buffer_reader.dfy | `BufferReader` | the cursor, every read, the encoders and the read round trips |
| mesh_collection.dfy | `MeshCollection` | the decoder and the store update |
| mesh_collection_format.dfy | `MeshCollectionFormat` | an encoder for authored meshes, and the entry each one should decode to |
| mesh_collection_round_trip.dfy | `MeshCollectionRoundTrip` | decode-after-encode, record by record and for a whole collection |
| render_batch.dfy | `RenderBatch` | `MeshInstance`, the batch state, `tryAdd` and its invariant |
| loader.dfy | `Loader` | `getRenderBatches`, its packing properties, and the collection-id dedupe |
| camera_motion.dfy | `CameraMotion` | `_isCameraMovingOrJustStop` |
| model_renderer.dfy | `ModelRenderer` | the scheduler state, abort, one generator step, a frame, `load` |
| progressive_drawing.dfy | `ProgressiveDrawing` | the scheduler's invariant and its frame-by-frame trace |

Floats are kept as raw IEEE 754 bit patterns, so negating a float flips its sign bit.
Mesh ids are kept as undecoded bytes. A read that would go past the end of the buffer
fails with `OutOfBounds`.

Some behaviours of the code are easy to miss. The model follows the code in each:

- Batch 0 is removed from the scene on the third frame of a reveal, together with the
  `Show(1)` of batch 1, not on the second frame. Each batch stays for two frames because
  the generator yields twice.
- When triangle counts are non-negative, the packer drops every instance whose own cost
  is at least 1,000,000. The second
  `tryAdd` at src/Loader.ts:65 ignores its result.
- 1500 instances with zero triangles pack as 999 + 501, not 1000 + 500. The 1000th
  instance would bring the total to exactly 1,000,000, and the cap uses `>=`.
- A collection whose decoding fails part-way keeps the records decoded before the
  failure. The map is updated record by record. The failure then leaves `Loader.load`,
  so the remaining collections are not parsed and `ModelRenderer.load` appends no
  batches and does not restart drawing.
- A negative string length is not rejected. It yields no bytes and moves the cursor
  backwards. `readBuffer` behaves the same for a negative length, as long as the cursor
  does not move before the start of the buffer.

## Model

| member | source | states |
|---|---|---|
| BufferReader.Open | src/BufferReader.ts:3-10 | a new reader is over the given bytes, at offset 0, with the little-endian flag set |
| BufferReader.SetLittleEndian | src/BufferReader.ts:24-26 | setting the flag changes neither the bytes nor the offset |
| BufferReader.ReadBuffer | src/BufferReader.ts:87-91 | succeeds exactly when [offset, offset + length) is inside the buffer, or when the offset is inside the buffer and a negative length keeps offset + length at or above 0; yields the `length` bytes at the offset, or none for a negative length; always moves the offset by `length`; otherwise an `OutOfBounds` error naming offset and length |
| BufferReader.ReadBufferValue | src/BufferReader.ts:87-91 | in bounds, `readBuffer` yields exactly the bytes data[offset..offset + length] |
| BufferReader.ReadBufferConcat | src/BufferReader.ts:87-91 | reading a bytes and then b bytes gives the same bytes and end offset as reading a + b at once |
| BufferReader.ReadFixedIsBuffer | src/BufferReader.ts:28-74 | a fixed-width read covers the same bytes as `readBuffer` of that width and yields their little-endian value |
| BufferReader.ReadUInt8 | src/BufferReader.ts:34-38 | succeeds iff one byte is left; advances 1; the value is in [0, 256) |
| BufferReader.ReadUInt8Value | src/BufferReader.ts:34-38 | the value is the byte at the offset |
| BufferReader.ReadInt8 | src/BufferReader.ts:28-32 | succeeds iff one byte is left; advances 1; the value is in [-128, 128) |
| BufferReader.ReadInt8Value | src/BufferReader.ts:28-32 | the value is the byte read as two's complement |
| BufferReader.ReadUInt16 | src/BufferReader.ts:46-50 | succeeds iff two bytes are left; advances 2; the value is in [0, 2^16) |
| BufferReader.ReadUInt16Value | src/BufferReader.ts:46-50 | the value is b0 + 256·b1 |
| BufferReader.ReadInt16 | src/BufferReader.ts:40-44 | succeeds iff two bytes are left; advances 2; the value is in [-2^15, 2^15) |
| BufferReader.ReadInt16Value | src/BufferReader.ts:40-44 | the value is b0 + 256·b1, minus 2^16 when the top bit is set |
| BufferReader.ReadUInt32 | src/BufferReader.ts:58-62 | succeeds iff four bytes are left; advances 4 |
| BufferReader.ReadUInt32Value | src/BufferReader.ts:58-62 | the value is b0 + 2^8·b1 + 2^16·b2 + 2^24·b3 |
| BufferReader.ReadInt32 | src/BufferReader.ts:52-56 | succeeds iff four bytes are left; advances 4 |
| BufferReader.ReadInt32Value | src/BufferReader.ts:52-56 | the value is the little-endian sum, minus 2^32 when the top bit of b3 is set |
| BufferReader.ReadInt32RoundTrip | src/BufferReader.ts:52-56 | reading back the four little-endian two's-complement bytes of any int32 n yields n and advances 4 |
| BufferReader.ReadInt8RoundTrip | src/BufferReader.ts:28-32 | reading back the byte encoding of any int8 yields it and advances 1 |
| BufferReader.ReadFloat32 | src/BufferReader.ts:64-68 | succeeds iff four bytes are left; advances 4; yields the bit pattern of those bytes |
| BufferReader.ReadFloat32Value | src/BufferReader.ts:64-68 | the bit pattern is b0 + 256·b1 + 256²·b2 + 256³·b3 of the four bytes at the offset |
| BufferReader.ReadFloat32RoundTrip | src/BufferReader.ts:64-68 | reading back the bytes of a binary32 pattern yields that pattern |
| BufferReader.ReadFloat64 | src/BufferReader.ts:70-74 | succeeds iff eight bytes are left; advances 8 |
| BufferReader.ReadFloat64Value | src/BufferReader.ts:70-74 | the binary64 pattern is the low word plus 2^32 times the high word |
| BufferReader.ReadUtf8String | src/BufferReader.ts:76-85 | reads a signed int32 length L, yields bytes [off + 4, off + 4 + L) and always ends at off + 4 + L; a negative L yields nothing and moves the cursor back; fails iff the prefix or the bytes run past the end |
| BufferReader.ReadUtf8StringRoundTrip | src/BufferReader.ts:76-85 | reading back a length-prefixed byte string yields it and advances 4 + length |
| BufferReader.EndianFlagIgnored | src/BufferReader.ts:20-74 | whatever the flag is set to, every multi-byte read returns the same value, offset and error |
| BufferReader.ReadBufferStable | src/BufferReader.ts:87-91 | appending bytes to the buffer does not change a read that succeeded |
| BufferReader.ReadInt32Stable | src/BufferReader.ts:52-56 | appending bytes does not change a successful int32 read |
| BufferReader.ReadUtf8StringStable | src/BufferReader.ts:76-85 | appending bytes does not change a successful string read |
| BufferReader.Negate32 | src/Loader.ts:86 | negating a float flips its sign bit and keeps the other 31 bits |
| LittleEndian.SignedBytes | src/BufferReader.ts:52-56 | the two's-complement encoding of n reads back as n |
| MeshCollection.IndexTriplesCountsLoop | src/Loader.ts:92 | the index loop, which tests v < indicesCount / 3 with real division, runs ceil(I/3) times for I > 0 and never for I <= 0 |
| MeshCollection.ReadNegatedTriples | src/Loader.ts:85-89 | n triples take exactly 12n bytes and yield 3n floats; float j is the one at offset + 4j, negated when j is an x slot |
| MeshCollection.ReadIndexTriples | src/Loader.ts:92-99 | n triples take exactly 12n bytes and yield 3n int32 values, each the one at offset + 4j, with no range check |
| MeshCollection.SkipUvPairs | src/Loader.ts:114-117 | n pairs take exactly 8n bytes |
| MeshCollection.ReadRecordHeader | src/Loader.ts:77-81 | the byte count and the topology are read and dropped; succeeds exactly when the 8 bytes of byte count and length and the 4 topology bytes at offset + 8 + length are inside the buffer; the declared length is the int32 at offset + 4; the id is the `length` bytes from offset + 8, or empty for a negative length; ends 12 + length bytes on, within the buffer |
| MeshCollection.ReadNormalsSection | src/Loader.ts:101-109 | succeeds exactly when the flag byte is present and, for a non-zero flag, the count and 12·count further bytes are too; a zero flag means no section and empty normals; any other flag means a count and 3·count floats; with a positive count, float j is the one at offset + 5 + 4j, negated when j is an x slot; the section's size is exact |
| MeshCollection.ReadGeometrySucceeds | src/Loader.ts:82-99 | the geometry reads exactly when the vertex count, 12 bytes per vertex, the index count and 12 bytes per index triple all lie inside the buffer |
| MeshCollection.ReadGeometryContent | src/Loader.ts:82-89 | after a successful geometry read, position j is the float at offset + 4 + 4j, negated when j is an x slot, and the read ends within the buffer |
| MeshCollection.ReadGeometryIndices | src/Loader.ts:90-99 | with a positive index count, index j is the int32 at offset + 8 + 12·vertexCount + 4j (a negative vertex count counting as 0), the bytes right after the index count |
| MeshCollection.SkipUvSection | src/Loader.ts:111-118 | succeeds exactly when the flag byte is present and, for a non-zero flag, the count and 8·count further bytes are too; a zero flag means no section; any other flag consumes 4 + 8·count more bytes and stores nothing |
| MeshCollection.ReadRecord | src/Loader.ts:76-121 | a decoded record has arrays of the sizes its counts declare, and the cursor ends exactly `RecordSize` bytes on, within the buffer |
| MeshCollection.TrailingSteps | src/Loader.ts:101-118 | the trailing sections read exactly when the normals section and then the UV section read; they yield the normals, the normals count and the UV count those reads yield |
| MeshCollection.RecordSteps | src/Loader.ts:76-121 | a record reads exactly when its header, geometry and trailing sections read in turn; the entry holds the id, positions, indices and normals they yield, and the cursor ends where the trailing sections end |
| MeshCollection.DecodeRecords | src/Loader.ts:75-121 | decodes up to `count` records, stopping at the first failing read; with no failure there are exactly `count` entries |
| MeshCollection.DecodeRecordsReadsInTurn | src/Loader.ts:76-121 | the entries are the records `ReadRecord` yields one after another from the start, and a failure is exactly the error of the record read that starts right after the last entry |
| MeshCollection.ReadInTurnDecodes | src/Loader.ts:76-121 | conversely, records read in turn are what decoding returns: all `count` of them with no failure, or fewer followed by the failing read's error |
| MeshCollection.DecodeCollection | src/Loader.ts:72-76 | skips the name and reads the count; every entry is well shaped |
| MeshCollection.Assign | src/Loader.ts:120 | the stored keys are the old keys plus the decoded ids; keys no record names keep their meshes |
| MeshCollection.AssignLastWins | src/Loader.ts:120 | each id ends up holding the mesh of the last record with that id |
| MeshCollection.ParseMeshCollection | src/Loader.ts:72-122 | `_parseMeshCollection` adds exactly the decoded ids, leaves other keys alone, and keeps the records decoded before a failure |
| MeshCollectionRoundTrip.RecordRoundTrip | src/Loader.ts:76-121 | decoding an encoded record yields its id, positions with x negated, its indices and normals with x negated, and ends right after it |
| MeshCollectionRoundTrip.RecordsRoundTrip | src/Loader.ts:75-121 | decoding n encoded records yields the n entries in order, with no failure |
| MeshCollectionRoundTrip.CollectionRoundTrip | src/Loader.ts:72-122 | decoding an encoded collection followed by any bytes yields every authored mesh in order; the trailing bytes are ignored |
| MeshCollectionRoundTrip.ParseStoresLastMeshPerId | src/Loader.ts:72-122 | parsing an encoded collection stores under each id the mesh of the last record carrying it, with no failure |
| MeshCollectionRoundTrip.RecordsThenShort | src/Loader.ts:76-121 | encoded records followed by fewer than 8 bytes, read with a larger count, decode to exactly those records, then a failure |
| MeshCollectionRoundTrip.TruncatedCollection | src/Loader.ts:72-122 | a collection that declares more records than arrive before the data ends decodes to exactly the records that arrived, and a failure |
| MeshCollectionRoundTrip.ParseTruncatedCollection | src/Loader.ts:72-122 | parsing such a collection adds exactly the ids of the records that arrived, keeps every other stored mesh, and reports the failure |
| RenderBatch.TryAdd | src/RenderBatch.ts:17-30 | refuses, leaving the batch unchanged, iff it already holds 1000 instances or the total plus the cost would reach 1,000,000; otherwise appends the instance and adds its cost, where a zero count costs 1000 |
| RenderBatch.FreshValid | src/RenderBatch.ts:9-10 | a new batch satisfies the invariant |
| RenderBatch.TryAddPreservesValid | src/RenderBatch.ts:17-30 | the invariant holds after `tryAdd`, accepted or not: total equals the sum of costs, at most 1000 instances, total below 1,000,000 |
| RenderBatch.FreshAcceptsIff | src/RenderBatch.ts:17-30 | a new batch accepts an instance iff its cost is below 1,000,000 |
| RenderBatch.TotalCostAppend | src/RenderBatch.ts:27-28 | appending an instance adds its cost to the total |
| Loader.GetRenderBatches | src/Loader.ts:58-70 | the loop computes the same batches as the functional packing |
| Loader.PackAllInvariant | src/Loader.ts:58-70 | every batch stays valid; with non-negative counts the batches hold the kept instances in order |
| Loader.RenderBatchesValid | src/Loader.ts:58-70 | at least one batch is returned, each valid |
| Loader.NoInstancesOneEmptyBatch | src/Loader.ts:59-60 | no instances give exactly one empty batch |
| Loader.RenderBatchesKeepCheapInstances | src/Loader.ts:61-66 | the batches concatenated are the input minus the instances costing 1,000,000 or more |
| Loader.ClosedGrows | src/Loader.ts:58-70 | packing more instances only appends to the pushed batches |
| Loader.ClosedBatchesRefused | src/Loader.ts:62-65 | pushed batch k was pushed at some instance j: it is the batch being filled after the first j instances, k batches were pushed before it, and it refused instance j |
| Loader.RefusalPushes | src/Loader.ts:62-65 | conversely, when instance j is refused by the batch being filled, that batch is pushed as the next batch |
| Loader.CapacityAccepts | src/RenderBatch.ts:20-23 | a batch of j instances of cost k accepts one more iff j + 1 is within the capacity for k |
| Loader.UniformRenderBatches | src/Loader.ts:58-70 | with one cost k, every batch but the last is full and the last holds the remainder |
| Loader.ZeroCountsPackAs999And501 | src/RenderBatch.ts:19-22 | 1500 zero-count instances pack as 999 + 501 |
| Loader.UnitCountsPackAs1000And500 | src/RenderBatch.ts:19-22 | 1500 one-triangle instances pack as 1000 + 500 |
| Loader.CollectionIdsOf | src/Loader.ts:39 | one `meshId[0]` per instance, missing when the id array is empty |
| Loader.DistinctSpec | src/Loader.ts:38-40 | deduplication keeps every value exactly once, ordered by first occurrence |
| Loader.CollectionIdsSpec | src/Loader.ts:38-40 | the collections fetched are the distinct `meshId[0]` values, in first-occurrence order |
| CameraMotion.Observe | src/ModelRenderer.ts:105-115 | moving and just-stopped are never both reported; the stored transform and status become this frame's |
| CameraMotion.ObserveAt | src/ModelRenderer.ts:105-115 | frame i is moving iff the transform changed since the previous frame; it is just-stopped iff it did not change but the previous frame was moving |
| CameraMotion.ObserveAllSpec | src/ModelRenderer.ts:105-115 | `ObserveAt` for every frame of a run |
| CameraMotion.StillCameraIsQuiet | src/ModelRenderer.ts:105-115 | a camera at rest that stays put reports nothing |
| CameraMotion.StopIsReportedOnce | src/ModelRenderer.ts:105-115 | after a move, the first still frame reports just-stopped and the camera is at rest again |
| ModelRenderer.Abort | src/ModelRenderer.ts:138-145 | the current batch is forgotten and taken off the scene, with at most one effect; nothing else changes |
| ModelRenderer.ShowBatch | src/ModelRenderer.ts:125-130 | the batch becomes current, is on the scene, and the generator waits at its first yield |
| ModelRenderer.Resume | src/ModelRenderer.ts:121-136 | one generator step keeps the batches and the camera and shows only existing batches |
| ModelRenderer.Frame | src/ModelRenderer.ts:147-166 | a frame keeps the batches, records the camera transform, and shows only existing batches |
| ModelRenderer.Load | src/ModelRenderer.ts:84-92 | appends the new batches, ends with a clear, and leaves a fresh, unstarted generator |
| ProgressiveDrawing.ConstructedValid | src/ModelRenderer.ts:26-72 | the constructed renderer has an empty scene and satisfies the invariant |
| ProgressiveDrawing.OneBatchAtATime | src/ModelRenderer.ts:126-133 | at most one batch is on the scene, and it is the current batch |
| ProgressiveDrawing.FrameKeepsValid | src/ModelRenderer.ts:147-166 | a frame keeps the invariant |
| ProgressiveDrawing.LoadKeepsValid | src/ModelRenderer.ts:84-92 | `load` keeps the invariant, empties the scene, and emits the abort's effects and a clear |
| ProgressiveDrawing.AbortSceneFollowsEffects | src/ModelRenderer.ts:138-145 | the abort's scene change is the one its effects describe |
| ProgressiveDrawing.ResumeSceneFollowsEffects | src/ModelRenderer.ts:121-136 | a generator step's scene change is the one its effects describe |
| ProgressiveDrawing.FrameSceneFollowsEffects | src/ModelRenderer.ts:147-166 | every scene change a frame makes is announced by its effects, in order |
| ProgressiveDrawing.LoadSceneFollowsEffects | src/ModelRenderer.ts:84-92 | `load`'s scene change is the one its effects describe |
| ProgressiveDrawing.MovingFrameStopsDrawing | src/ModelRenderer.ts:149-153 | a moving frame hides the current batch, clears, and drops the generator; nothing is shown |
| ProgressiveDrawing.StopRestartsFromFirstBatch | src/ModelRenderer.ts:156-165 | the first still frame after a move hides the current batch, clears, restarts, and shows batch 0 in that same frame |
| ProgressiveDrawing.IdleFrameDoesNothing | src/ModelRenderer.ts:161-163 | with a still camera and no generator, a frame changes nothing |
| ProgressiveDrawing.ExpectedAt | src/ModelRenderer.ts:121-136 | in the reference trace, batch j is shown in frame 2j and hidden in frame 2j + 2, and in no other frame |
| ProgressiveDrawing.SteadyStep | src/ModelRenderer.ts:121-166 | with a still camera, one frame emits the reference effects and moves the generator one phase on |
| ProgressiveDrawing.ExpectedTraceAt | src/ModelRenderer.ts:121-136 | entry i of the reference trace is the reference effects of frame f + i |
| ProgressiveDrawing.SteadyRun | src/ModelRenderer.ts:121-166 | any number of still frames emit the reference trace and keep the invariant |
| ProgressiveDrawing.SteadyCameraDrawsEveryBatchInTurn | src/ModelRenderer.ts:121-166 | from a fresh generator with a still camera, frame i emits the reference effects; after 2n + 1 frames the generator is done and the scene is empty |
| ProgressiveDrawing.LoadRestartsFromFirstBatch | src/ModelRenderer.ts:84-92 | `load` appends `getRenderBatches` of the instances, hides the current batch and clears; the next still frame shows batch 0 and nothing else |

## Left out

- I/O: the network fetches and gzip in `Loader.load`, `console` timing and logging, and `main.ts`. Materials are fetched but never used by the packer. A decoding failure is the `failure` field of one collection's `Parsed` result; the exception that ends `Loader.load` there, skipping the later collections, and makes `ModelRenderer.load` (src/ModelRenderer.ts:84-92) return before it appends batches or restarts drawing, is not modelled.
- Geometry and drawing: `RenderBatch.build`, `RenderBatch.dispose` and `_createMaterial`. `Show(i)` stands for build-and-add, and `Hide(i)` for remove-and-dispose. `dispose` removes children while it indexes forward, so it skips every other child; that is not modelled.
- Renderer plumbing: the WebGL renderer, Stats, OrbitControls, resizing, `_render` with `requestAnimationFrame`, and the hemisphere light. `_drawEveryFrame` is only recorded as a `Clear` effect.
- The camera transform is any type with equality. The source compares two 4x4 float matrices with `Matrix4.equals`.
- Floating point: `readFloat32` and `readFloat64` yield bit patterns. Negation flips the sign bit.
- UTF-8 decoding of strings and ids, as in section 3 of RFC 3629. Ids stay bytes, so two byte strings that decode to the same text count as different ids here.
- The buffer library's out-of-range behaviour: `readUInt8` and the others throw, while `toString` and `slice` clamp. The model turns every out-of-range read into an `OutOfBounds` failure. For `readUtf8String` and `readBuffer` a clamped read is therefore a failure here.
- BufferReader.ReadBuffer: `slice` counts a negative end from the end of the buffer. A negative length that moves the cursor before 0 is an `OutOfBounds` failure here.
- MeshCollectionRoundTrip.TruncatedCollection and MeshCollectionRoundTrip.ParseTruncatedCollection: cover a stream cut off within 8 bytes after a complete record. A cut deeper inside a record is covered only by `DecodeRecordsReadsInTurn`, which says the failure is that record's read failing.
- MeshCollection.Assign: the store `meshCollections` is a plain JavaScript object and is modelled as a map. An id that decodes to `__proto__` replaces the object's prototype rather than adding a key, and names such as `toString` are found through the prototype chain without any record. Neither is modelled.
- RenderBatch.TryAdd: `triangleCount` is a JavaScript number read from JSON and is modelled as an integer. A missing count (`undefined`) makes the running total `NaN`, after which every cost comparison is false and only the 1000-instance cap refuses; such counts, fractional counts and totals beyond 2^53, where addition rounds, are not modelled. The cost cap below 1,000,000 holds only for integer counts.
- Loader.RenderBatchesKeepCheapInstances: requires non-negative triangle counts. With a negative count, a heavy instance can fit behind a negative running total.
- Loader.PackAllInvariant: the ordering half requires non-negative triangle counts, for the same reason.
- Some functions reach their bodies through a countdown parameter: `UIntAt` through `Word`, `At` through `Occurs`, `FixedBytes`, and `Frame`, `ReadRecordHeader`, `ReadNormalsSection`, `ReadGeometry`, `ReadTrailingSections`, `ReadRecord` and `EncodeRecord` through their `Delayed` twins. Every value of the countdown gives the same result. It stands in for hiding a definition and keeps the proofs about whole records and frame runs within the solver's budget; `BytesAt`, `SkipUvSection` and the other functions have plain bodies.

=== FILE: buffer_reader.dfy ===
/** The binary cursor (src/BufferReader.ts): an immutable byte buffer, a read offset
    that starts at 0, and fixed-width and length-prefixed readers that each move only
    the offset. Reads the underlying buffer library would reject or clamp are modelled
    as an `OutOfBounds` failure. */
module BufferReader {
  import opened Wrappers
  import opened LittleEndian

  type Bits32 = b: int | 0 <= b < 0x1_0000_0000
  type Bits64 = b: int | 0 <= b < 0x1_0000_0000_0000_0000

  /** An IEEE 754 binary32 value, kept as its raw bit pattern. */
  datatype Float32 = Float32(bits: Bits32)

  /** An IEEE 754 binary64 value, kept as its raw bit pattern. */
  datatype Float64 = Float64(bits: Bits64)

  /** Arithmetic negation of a binary32 value: the sign bit flips, every other bit stays. */
  function Negate32(f: Float32): (r: Float32)
    ensures r.bits % 0x8000_0000 == f.bits % 0x8000_0000
    ensures (r.bits >= 0x8000_0000) != (f.bits >= 0x8000_0000)
  {
    if f.bits >= 0x8000_0000 then Float32(f.bits - 0x8000_0000) else Float32(f.bits + 0x8000_0000)
  }

  datatype ReadError = OutOfBounds(offset: int, length: int)

  /** The reader's state: the bytes, the offset and the (never consulted) endianness flag. */
  datatype Cursor = Cursor(data: seq<byte>, offset: int, littleEndian: bool)

  /** A decoded value together with the cursor after the read. */
  datatype Read<+T> = Read(value: T, next: Cursor)

  type Outcome<T> = Result<Read<T>, ReadError>

  /** A new reader over `data`. */
  function Open(data: seq<byte>): (c: Cursor)
    ensures c.data == data && c.offset == 0 && c.littleEndian
  {
    Cursor(data, 0, true)
  }

  /** The `littleEndian` setter: records the flag and nothing else. */
  function SetLittleEndian(c: Cursor, littleEndian: bool): (r: Cursor)
    ensures r.data == c.data && r.offset == c.offset && r.littleEndian == littleEndian
  {
    c.(littleEndian := littleEndian)
  }

  predicate InBounds(c: Cursor, length: int) {
    0 <= c.offset && 0 <= length && c.offset + length <= |c.data|
  }

  /**
   * The unsigned value of the `width` bytes at `offset`, least significant byte
   * first. It goes through the countdown `Word`, whose step count is not a
   * literal and starts above zero, so a mention of it does not expose the
   * bytes it stands for;
   * `UIntAtValue` exposes them where a proof needs them.
   */
  function UIntAt(data: seq<byte>, offset: int, width: nat): (u: nat)
    requires 0 <= offset && offset + width <= |data|
    ensures u < Pow256(width)
  {
    Word(data, offset, width, |data| + 1)
  }

  /** The same value whatever `steps` is; the countdown only delays unfolding. */
  function Word(data: seq<byte>, offset: int, width: nat, steps: nat): (u: nat)
    requires 0 <= offset && offset + width <= |data|
    ensures u < Pow256(width)
    decreases steps
  {
    if steps == 0 then Unsigned(data[offset..offset + width]) else Word(data, offset, width, steps - 1)
  }

  lemma {:induction false} WordValue(data: seq<byte>, offset: int, width: nat, steps: nat)
    requires 0 <= offset && offset + width <= |data|
    ensures Word(data, offset, width, steps) == Unsigned(data[offset..offset + width])
    decreases steps
  {
    if steps > 0 {
      WordValue(data, offset, width, steps - 1);
    }
  }

  lemma {:induction false} UIntAtValue(data: seq<byte>, offset: int, width: nat)
    requires 0 <= offset && offset + width <= |data|
    ensures UIntAt(data, offset, width) == Unsigned(data[offset..offset + width])
  {
    WordValue(data, offset, width, |data| + 1);
  }

  /** The unsigned 32-bit value stored little-endian at `offset`. */
  function UInt32At(data: seq<byte>, offset: int): (u: nat)
    requires 0 <= offset && offset + 4 <= |data|
    ensures u < 0x1_0000_0000
  {
    Pow256Values();
    UIntAt(data, offset, 4)
  }

  /** The 32-bit value at `offset` is b0 + 256 b1 + 256^2 b2 + 256^3 b3. */
  lemma {:induction false} UInt32AtValue(data: seq<byte>, offset: int)
    requires 0 <= offset && offset + 4 <= |data|
    ensures UInt32At(data, offset) == data[offset] as int + 0x100 * data[offset + 1] as int
                                      + 0x1_0000 * data[offset + 2] as int + 0x100_0000 * data[offset + 3] as int
    ensures UInt32At(data, offset) == Unsigned(data[offset..offset + 4])
  {
    UIntAtValue(data, offset, 4);
    Unsigned4(data[offset..offset + 4]);
  }

  /** The signed 32-bit value stored little-endian, two's complement, at `offset`. */
  function Int32At(data: seq<byte>, offset: int): (n: int)
    requires 0 <= offset && offset + 4 <= |data|
    ensures -0x8000_0000 <= n < 0x8000_0000
  {
    Pow256Values();
    Signed(UIntAt(data, offset, 4), 4)
  }

  /** The signed value is 2^32 less than the unsigned one exactly when the top byte
      has its high bit set. */
  lemma {:induction false} Int32AtValue(data: seq<byte>, offset: int)
    requires 0 <= offset && offset + 4 <= |data|
    ensures Int32At(data, offset) == UInt32At(data, offset) - (if data[offset + 3] >= 0x80 then 0x1_0000_0000 else 0)
  {
    Pow256Values();
    UInt32AtValue(data, offset);
  }

  /** The binary32 bit pattern stored little-endian at `offset`. */
  function Float32At(data: seq<byte>, offset: int): Float32
    requires 0 <= offset && offset + 4 <= |data|
  {
    Pow256Values();
    Float32(UIntAt(data, offset, 4))
  }

  lemma Unsigned2(bs: seq<byte>)
    requires |bs| == 2
    ensures Unsigned(bs) == bs[0] as int + 0x100 * bs[1] as int
  {
    assert bs[1..][1..] == [];
  }

  lemma Unsigned4(bs: seq<byte>)
    requires |bs| == 4
    ensures Unsigned(bs) == bs[0] as int + 0x100 * bs[1] as int + 0x1_0000 * bs[2] as int + 0x100_0000 * bs[3] as int
  {
    var b1 := bs[1..];
    var b2 := b1[1..];
    var b3 := b2[1..];
    assert b3[1..] == [];
  }

  lemma Unsigned8(bs: seq<byte>)
    requires |bs| == 8
    ensures Unsigned(bs) == Unsigned(bs[..4]) + 0x1_0000_0000 * Unsigned(bs[4..])
  {
    var b1 := bs[1..];
    var b2 := b1[1..];
    var b3 := b2[1..];
    var b4 := b3[1..];
    assert b4 == bs[4..];
    Unsigned4(bs[..4]);
    var h := bs[..4];
    assert h[1..][1..][1..][1..] == [];
  }

  /** The `length` bytes at `offset`. */
  function BytesAt(data: seq<byte>, offset: int, length: nat): (bs: seq<byte>)
    requires 0 <= offset && offset + length <= |data|
    ensures |bs| == length
  {
    data[offset..offset + length]
  }

  /** `readBuffer`: the next `length` bytes, offset advanced by `length`. A negative
      length gives no bytes and moves the offset back, as `slice` does when its end is
      before its start. */
  function ReadBuffer(c: Cursor, length: int): (r: Outcome<seq<byte>>)
    ensures r.Ok? <==> InBounds(c, length) || (length < 0 && InBounds(c, 0) && 0 <= c.offset + length)
    ensures r.Ok? && length >= 0 ==> |r.value.value| == length && r.value.value == BytesAt(c.data, c.offset, length)
    ensures r.Ok? && length < 0 ==> r.value.value == []
    ensures r.Ok? ==> r.value.next == c.(offset := c.offset + length)
    ensures r.Err? ==> r.error == OutOfBounds(c.offset, length)
  {
    if InBounds(c, length) then
      Ok(Read(BytesAt(c.data, c.offset, length), c.(offset := c.offset + length)))
    else if length < 0 && InBounds(c, 0) && 0 <= c.offset + length then
      Ok(Read([], c.(offset := c.offset + length)))
    else
      Err(OutOfBounds(c.offset, length))
  }

  /** When in bounds, `readBuffer` returns exactly the bytes [offset, offset + length). */
  lemma {:induction false} ReadBufferValue(c: Cursor, length: int)
    requires InBounds(c, length)
    ensures ReadBuffer(c, length).value.value == c.data[c.offset..c.offset + length]
  {
  }

  /** A fixed-width little-endian unsigned read, the common core of every numeric read. */
  function ReadFixed(c: Cursor, width: nat): (r: Outcome<nat>)
    ensures r.Ok? <==> InBounds(c, width)
    ensures r.Ok? ==> r.value.next == c.(offset := c.offset + width)
    ensures r.Ok? ==> r.value.value == UIntAt(c.data, c.offset, width) < Pow256(width)
    ensures r.Err? ==> r.error == OutOfBounds(c.offset, width)
  {
    if InBounds(c, width) then
      Ok(Read(UIntAt(c.data, c.offset, width), c.(offset := c.offset + width)))
    else
      Err(OutOfBounds(c.offset, width))
  }

  /** A fixed-width read takes the same bytes `readBuffer` would and reads them least
      significant first. */
  lemma {:induction false} ReadFixedIsBuffer(c: Cursor, width: nat)
    ensures ReadFixed(c, width).Ok? == ReadBuffer(c, width).Ok?
    ensures ReadFixed(c, width).Ok? ==>
      && ReadFixed(c, width).value.value == Unsigned(ReadBuffer(c, width).value.value)
      && ReadFixed(c, width).value.next == ReadBuffer(c, width).value.next
  {
    if InBounds(c, width) {
      UIntAtValue(c.data, c.offset, width);
    }
  }

  /** `readUInt8`. */
  function ReadUInt8(c: Cursor): (r: Outcome<int>)
    ensures r.Ok? <==> InBounds(c, 1)
    ensures r.Ok? ==> r.value.next == c.(offset := c.offset + 1)
    ensures r.Ok? ==> 0 <= r.value.value < 0x100
  {
    Pow256Values();
    var u :- ReadFixed(c, 1);
    Ok(Read(u.value as int, u.next))
  }

  /** `readInt8`: one byte as two's complement. */
  function ReadInt8(c: Cursor): (r: Outcome<int>)
    ensures r.Ok? <==> InBounds(c, 1)
    ensures r.Ok? ==> r.value.next == c.(offset := c.offset + 1)
    ensures r.Ok? ==> -0x80 <= r.value.value < 0x80
  {
    Pow256Values();
    var u :- ReadFixed(c, 1);
    Ok(Read(Signed(u.value, 1), u.next))
  }

  /** `readUInt16`: little-endian regardless of the endianness flag. */
  function ReadUInt16(c: Cursor): (r: Outcome<int>)
    ensures r.Ok? <==> InBounds(c, 2)
    ensures r.Ok? ==> r.value.next == c.(offset := c.offset + 2)
    ensures r.Ok? ==> 0 <= r.value.value < 0x1_0000
  {
    Pow256Values();
    var u :- ReadFixed(c, 2);
    Ok(Read(u.value as int, u.next))
  }

  /** `readInt16`: little-endian two's complement. */
  function ReadInt16(c: Cursor): (r: Outcome<int>)
    ensures r.Ok? <==> InBounds(c, 2)
    ensures r.Ok? ==> r.value.next == c.(offset := c.offset + 2)
    ensures r.Ok? ==> -0x8000 <= r.value.value < 0x8000
  {
    Pow256Values();
    var u :- ReadFixed(c, 2);
    Ok(Read(Signed(u.value, 2), u.next))
  }

  /** `readUInt32`. */
  function ReadUInt32(c: Cursor): (r: Outcome<int>)
    ensures r.Ok? <==> InBounds(c, 4)
    ensures r.Ok? ==> r.value.next == c.(offset := c.offset + 4)
    ensures r.Ok? ==> r.value.value == UInt32At(c.data, c.offset)
  {
    var u :- ReadFixed(c, 4);
    Ok(Read(u.value as int, u.next))
  }

  /** `readInt32`: little-endian two's complement, in [-2^31, 2^31). */
  function ReadInt32(c: Cursor): (r: Outcome<int>)
    ensures r.Ok? <==> InBounds(c, 4)
    ensures r.Ok? ==> r.value.next == c.(offset := c.offset + 4)
    ensures r.Ok? ==> r.value.value == Int32At(c.data, c.offset)
  {
    Pow256Values();
    var u :- ReadFixed(c, 4);
    Ok(Read(Signed(u.value, 4), u.next))
  }

  /** `readFloat32`: the four bytes' little-endian bit pattern. */
  function ReadFloat32(c: Cursor): (r: Outcome<Float32>)
    ensures r.Ok? <==> InBounds(c, 4)
    ensures r.Ok? ==> r.value.next == c.(offset := c.offset + 4)
    ensures r.Ok? ==> r.value.value == Float32At(c.data, c.offset)
  {
    Pow256Values();
    var u :- ReadFixed(c, 4);
    Ok(Read(Float32(u.value), u.next))
  }

  /** `readFloat64`: the eight bytes' little-endian bit pattern. */
  function ReadFloat64(c: Cursor): (r: Outcome<Float64>)
    ensures r.Ok? <==> InBounds(c, 8)
    ensures r.Ok? ==> r.value.next == c.(offset := c.offset + 8)
  {
    Pow256Values();
    var u :- ReadFixed(c, 8);
    Ok(Read(Float64(u.value), u.next))
  }

  // The values the numeric reads return, byte by byte.

  lemma {:induction false} ReadUInt8Value(c: Cursor)
    requires InBounds(c, 1)
    ensures ReadUInt8(c).value.value == c.data[c.offset]
  {
    UIntAtValue(c.data, c.offset, 1);
    assert c.data[c.offset..c.offset + 1][1..] == [];
  }

  lemma {:induction false} ReadInt8Value(c: Cursor)
    requires InBounds(c, 1)
    ensures ReadInt8(c).value.value == c.data[c.offset] as int - (if c.data[c.offset] >= 0x80 then 0x100 else 0)
  {
    Pow256Values();
    UIntAtValue(c.data, c.offset, 1);
    assert c.data[c.offset..c.offset + 1][1..] == [];
  }

  lemma {:induction false} ReadUInt16Value(c: Cursor)
    requires InBounds(c, 2)
    ensures ReadUInt16(c).value.value == c.data[c.offset] as int + 0x100 * c.data[c.offset + 1] as int
  {
    UIntAtValue(c.data, c.offset, 2);
    Unsigned2(c.data[c.offset..c.offset + 2]);
  }

  lemma {:induction false} ReadInt16Value(c: Cursor)
    requires InBounds(c, 2)
    ensures ReadInt16(c).value.value == c.data[c.offset] as int + 0x100 * c.data[c.offset + 1] as int
                                        - (if c.data[c.offset + 1] >= 0x80 then 0x1_0000 else 0)
  {
    Pow256Values();
    UIntAtValue(c.data, c.offset, 2);
    Unsigned2(c.data[c.offset..c.offset + 2]);
  }

  lemma {:induction false} ReadUInt32Value(c: Cursor)
    requires InBounds(c, 4)
    ensures ReadUInt32(c).value.value == c.data[c.offset] as int + 0x100 * c.data[c.offset + 1] as int
              + 0x1_0000 * c.data[c.offset + 2] as int + 0x100_0000 * c.data[c.offset + 3] as int
  {
    UInt32AtValue(c.data, c.offset);
  }

  lemma {:induction false} ReadInt32Value(c: Cursor)
    requires InBounds(c, 4)
    ensures ReadInt32(c).value.value == c.data[c.offset] as int + 0x100 * c.data[c.offset + 1] as int
              + 0x1_0000 * c.data[c.offset + 2] as int + 0x100_0000 * c.data[c.offset + 3] as int
              - (if c.data[c.offset + 3] >= 0x80 then 0x1_0000_0000 else 0)
  {
    UInt32AtValue(c.data, c.offset);
    Int32AtValue(c.data, c.offset);
  }

  /** The binary32 pattern is the four-byte little-endian sum. */
  lemma {:induction false} ReadFloat32Value(c: Cursor)
    requires InBounds(c, 4)
    ensures ReadFloat32(c).value.value.bits == c.data[c.offset] as int + 0x100 * c.data[c.offset + 1] as int
              + 0x1_0000 * c.data[c.offset + 2] as int + 0x100_0000 * c.data[c.offset + 3] as int
  {
    UInt32AtValue(c.data, c.offset);
  }

  /** The binary64 pattern is the low word plus 2^32 times the high word. */
  lemma {:induction false} ReadFloat64Value(c: Cursor)
    requires InBounds(c, 8)
    ensures ReadFloat64(c).value.value.bits == UInt32At(c.data, c.offset) + 0x1_0000_0000 * UInt32At(c.data, c.offset + 4)
  {
    var bs := c.data[c.offset..c.offset + 8];
    UIntAtValue(c.data, c.offset, 8);
    Unsigned8(bs);
    assert bs[..4] == c.data[c.offset..c.offset + 4];
    assert bs[4..] == c.data[c.offset + 4..c.offset + 8];
    UInt32AtValue(c.data, c.offset);
    UInt32AtValue(c.data, c.offset + 4);
  }

  /** `readUtf8String`: a signed 32-bit length L, then L bytes (kept undecoded). The
      offset always ends at off + 4 + L; nothing checks L >= 0, so a negative length
      moves the cursor backwards and yields no bytes. */
  function ReadUtf8String(c: Cursor): (r: Outcome<seq<byte>>)
    ensures r.Ok? <==> InBounds(c, 4) && (Int32At(c.data, c.offset) < 0 || c.offset + 4 + Int32At(c.data, c.offset) <= |c.data|)
    ensures r.Ok? ==> r.value.next == c.(offset := c.offset + 4 + Int32At(c.data, c.offset))
    ensures r.Ok? ==> r.value.value == (if Int32At(c.data, c.offset) < 0 then []
                                        else BytesAt(c.data, c.offset + 4, Int32At(c.data, c.offset)))
  {
    var n :- ReadInt32(c);
    if n.value < 0 then
      Ok(Read([], n.next.(offset := n.next.offset + n.value)))
    else
      ReadBuffer(n.next, n.value)
  }

  // ---------------------------------------------------------------------------
  // Encodings: the inverse of the readers, used to state round trips.

  /**
   * `bytes` occurs in `data` starting at `offset`. The bounds are stated
   * directly; the bytes go through the countdown `Occurs`, whose step count is
   * not a literal and starts above zero, so a mention of `At` does not by itself
   * expose the slice it stands for. `AtSlice` exposes it where a proof needs the bytes.
   */
  predicate At(data: seq<byte>, offset: int, bytes: seq<byte>) {
    0 <= offset && offset + |bytes| <= |data| && Occurs(data, offset, bytes, |bytes| + 1)
  }

  /** The same truth value whatever `steps` is; the countdown only delays unfolding. */
  predicate Occurs(data: seq<byte>, offset: int, bytes: seq<byte>, steps: nat)
    requires 0 <= offset && offset + |bytes| <= |data|
    decreases steps
  {
    if steps == 0 then data[offset..offset + |bytes|] == bytes
    else Occurs(data, offset, bytes, steps - 1)
  }

  lemma {:induction false} OccursSlice(data: seq<byte>, offset: int, bytes: seq<byte>, steps: nat)
    requires 0 <= offset && offset + |bytes| <= |data|
    ensures Occurs(data, offset, bytes, steps) == Occurs(data, offset, bytes, 0)
    decreases steps
  {
    if steps > 0 {
      OccursSlice(data, offset, bytes, steps - 1);
    }
  }

  /** `At` is the slice equality it abbreviates. */
  lemma {:induction false} AtSlice(data: seq<byte>, offset: int, bytes: seq<byte>)
    ensures At(data, offset, bytes)
        <==> 0 <= offset && offset + |bytes| <= |data| && data[offset..offset + |bytes|] == bytes
  {
    if 0 <= offset && offset + |bytes| <= |data| {
      OccursSlice(data, offset, bytes, |bytes| + 1);
    }
  }

  predicate IsInt32(n: int) {
    -0x8000_0000 <= n < 0x8000_0000
  }

  /**
   * The `width` bytes that encode `u` least significant byte first. Like `At`,
   * it goes through a countdown (here from `u + 1`), so a mention of an
   * encoding of a variable does not by itself expose its bytes;
   * `FixedBytesValue` states their value.
   */
  function FixedBytes(width: nat, u: nat, steps: nat): (bs: seq<byte>)
    requires u < Pow256(width)
    ensures |bs| == width
    decreases steps
  {
    if steps == 0 then UnsignedBytes(width, u) else FixedBytes(width, u, steps - 1)
  }

  lemma {:induction false} FixedBytesSteps(width: nat, u: nat, steps: nat)
    requires u < Pow256(width)
    ensures FixedBytes(width, u, steps) == UnsignedBytes(width, u)
    decreases steps
  {
    if steps > 0 {
      FixedBytesSteps(width, u, steps - 1);
    }
  }

  lemma {:induction false} FixedBytesValue(width: nat, u: nat)
    requires u < Pow256(width)
    ensures Unsigned(FixedBytes(width, u, u + 1)) == u
  {
    FixedBytesSteps(width, u, u + 1);
  }

  /** One byte, two's complement. */
  function EncodeInt8(n: int): (bs: seq<byte>)
    requires -0x80 <= n < 0x80
    ensures |bs| == 1
  {
    Pow256Values();
    var u := if n < 0 then n + 0x100 else n;
    FixedBytes(1, u, u + 1)
  }

  /** Four bytes, little-endian two's complement. */
  function EncodeInt32(n: int): (bs: seq<byte>)
    requires IsInt32(n)
    ensures |bs| == 4
  {
    Pow256Values();
    var u := if n < 0 then n + 0x1_0000_0000 else n;
    FixedBytes(4, u, u + 1)
  }

  /** The four little-endian bytes of a binary32 bit pattern. */
  function EncodeFloat32(f: Float32): (bs: seq<byte>)
    ensures |bs| == 4
  {
    Pow256Values();
    FixedBytes(4, f.bits, f.bits + 1)
  }

  /** A length-prefixed byte string, as `readUtf8String` expects it. */
  function EncodeString(s: seq<byte>): (bs: seq<byte>)
    requires |s| < 0x8000_0000
    ensures |bs| == 4 + |s|
  {
    EncodeInt32(|s|) + s
  }

  lemma {:induction false} ReadFixedRoundTrip(c: Cursor, width: nat, bytes: seq<byte>)
    requires |bytes| == width && At(c.data, c.offset, bytes)
    ensures ReadFixed(c, width) == Ok(Read(Unsigned(bytes), c.(offset := c.offset + width)))
  {
    AtSlice(c.data, c.offset, bytes);
    UIntAtValue(c.data, c.offset, width);
  }

  /** Encoding n as four little-endian two's-complement bytes and reading them back
      with `readInt32` returns n and advances the offset by 4. */
  lemma {:induction false} ReadInt32RoundTrip(c: Cursor, n: int)
    requires IsInt32(n) && At(c.data, c.offset, EncodeInt32(n))
    ensures ReadInt32(c) == Ok(Read(n, c.(offset := c.offset + 4)))
  {
    Pow256Values();
    FixedBytesValue(4, if n < 0 then n + 0x1_0000_0000 else n);
    ReadFixedRoundTrip(c, 4, EncodeInt32(n));
  }

  lemma {:induction false} ReadInt8RoundTrip(c: Cursor, n: int)
    requires -0x80 <= n < 0x80 && At(c.data, c.offset, EncodeInt8(n))
    ensures ReadInt8(c) == Ok(Read(n, c.(offset := c.offset + 1)))
  {
    Pow256Values();
    FixedBytesValue(1, if n < 0 then n + 0x100 else n);
    ReadFixedRoundTrip(c, 1, EncodeInt8(n));
  }

  lemma {:induction false} ReadFloat32RoundTrip(c: Cursor, f: Float32)
    requires At(c.data, c.offset, EncodeFloat32(f))
    ensures ReadFloat32(c) == Ok(Read(f, c.(offset := c.offset + 4)))
  {
    Pow256Values();
    FixedBytesValue(4, f.bits);
    ReadFixedRoundTrip(c, 4, EncodeFloat32(f));
  }

  /** If `a + b` occurs at `offset`, so do `a` there and `b` right after it. */
  lemma {:induction false} AtSplit(data: seq<byte>, offset: int, a: seq<byte>, b: seq<byte>)
    requires At(data, offset, a + b)
    ensures At(data, offset, a) && At(data, offset + |a|, b)
  {
    AtSlice(data, offset, a + b);
    AtSlice(data, offset, a);
    AtSlice(data, offset + |a|, b);
    var whole := data[offset..offset + |a| + |b|];
    assert data[offset..offset + |a|] == whole[..|a|];
    assert data[offset + |a|..offset + |a| + |b|] == whole[|a|..];
  }

  /** The three-way form of `AtSplit`. */
  lemma {:induction false} AtSplit3(data: seq<byte>, offset: int, a: seq<byte>, b: seq<byte>, d: seq<byte>)
    requires At(data, offset, a + (b + d))
    ensures At(data, offset, a) && At(data, offset + |a|, b) && At(data, offset + |a| + |b|, d)
  {
    AtSplit(data, offset, a, b + d);
    AtSplit(data, offset + |a|, b, d);
  }

  lemma {:induction false} ReadUtf8StringRoundTrip(c: Cursor, s: seq<byte>)
    requires |s| < 0x8000_0000 && At(c.data, c.offset, EncodeString(s))
    ensures ReadUtf8String(c) == Ok(Read(s, c.(offset := c.offset + 4 + |s|)))
  {
    AtSplit(c.data, c.offset, EncodeInt32(|s|), s);
    AtSlice(c.data, c.offset + 4, s);
    ReadInt32RoundTrip(c, |s|);
  }

  // ---------------------------------------------------------------------------
  // Reads depend only on the bytes they cover.

  /** The same cursor over a buffer with `more` bytes appended. */
  function Grow(c: Cursor, more: seq<byte>): Cursor {
    c.(data := c.data + more)
  }

  /** A successful read on `c` reads the same on the grown buffer, ending at the same offset. */
  predicate Stable<T(==)>(r: Outcome<T>, grown: Outcome<T>, more: seq<byte>) {
    r.Ok? ==> grown == Ok(Read(r.value.value, Grow(r.value.next, more)))
  }

  lemma {:induction false} ReadBufferStable(c: Cursor, length: int, more: seq<byte>)
    ensures Stable(ReadBuffer(c, length), ReadBuffer(Grow(c, more), length), more)
  {
    if InBounds(c, length) {
      assert (c.data + more)[c.offset..c.offset + length] == c.data[c.offset..c.offset + length];
    }
  }

  lemma {:induction false} ReadFixedStable(c: Cursor, width: nat, more: seq<byte>)
    ensures Stable(ReadFixed(c, width), ReadFixed(Grow(c, more), width), more)
  {
    if InBounds(c, width) {
      var g := Grow(c, more);
      UIntAtValue(c.data, c.offset, width);
      UIntAtValue(g.data, g.offset, width);
      assert g.data[g.offset..g.offset + width] == c.data[c.offset..c.offset + width];
    }
  }

  lemma {:induction false} ReadInt8Stable(c: Cursor, more: seq<byte>)
    ensures Stable(ReadInt8(c), ReadInt8(Grow(c, more)), more)
  {
    ReadFixedStable(c, 1, more);
  }

  lemma {:induction false} ReadInt32Stable(c: Cursor, more: seq<byte>)
    ensures Stable(ReadInt32(c), ReadInt32(Grow(c, more)), more)
  {
    ReadFixedStable(c, 4, more);
  }

  lemma {:induction false} ReadFloat32Stable(c: Cursor, more: seq<byte>)
    ensures Stable(ReadFloat32(c), ReadFloat32(Grow(c, more)), more)
  {
    ReadFixedStable(c, 4, more);
  }

  lemma {:induction false} ReadUtf8StringStable(c: Cursor, more: seq<byte>)
    ensures Stable(ReadUtf8String(c), ReadUtf8String(Grow(c, more)), more)
  {
    ReadInt32Stable(c, more);
    if ReadUtf8String(c).Ok? && Int32At(c.data, c.offset) >= 0 {
      ReadBufferStable(c.(offset := c.offset + 4), Int32At(c.data, c.offset), more);
    }
  }

  // ---------------------------------------------------------------------------
  // Properties of the reader as a whole.

  /** Two outcomes that agree on success, value, offset reached and error. */
  predicate SameReading<T(==)>(a: Outcome<T>, b: Outcome<T>) {
    && a.Ok? == b.Ok?
    && (a.Ok? ==> a.value.value == b.value.value && a.value.next.offset == b.value.next.offset)
    && (a.Err? ==> a.error == b.error)
  }

  /** The `littleEndian` flag is stored but never consulted: every multi-byte read
      decodes little-endian whatever its value. */
  lemma {:induction false} EndianFlagIgnored(c: Cursor, flag: bool)
    ensures SameReading(ReadInt16(c), ReadInt16(SetLittleEndian(c, flag)))
    ensures SameReading(ReadUInt16(c), ReadUInt16(SetLittleEndian(c, flag)))
    ensures SameReading(ReadInt32(c), ReadInt32(SetLittleEndian(c, flag)))
    ensures SameReading(ReadUInt32(c), ReadUInt32(SetLittleEndian(c, flag)))
    ensures SameReading(ReadFloat32(c), ReadFloat32(SetLittleEndian(c, flag)))
    ensures SameReading(ReadFloat64(c), ReadFloat64(SetLittleEndian(c, flag)))
    ensures SameReading(ReadUtf8String(c), ReadUtf8String(SetLittleEndian(c, flag)))
  {
  }

  /** Reading `a` bytes and then `b` bytes is reading `a + b` bytes at once. */
  lemma {:induction false} ReadBufferConcat(c: Cursor, a: nat, b: nat)
    requires ReadBuffer(c, a + b).Ok?
    ensures ReadBuffer(c, a).Ok? && ReadBuffer(ReadBuffer(c, a).value.next, b).Ok?
    ensures ReadBuffer(c, a).value.value + ReadBuffer(ReadBuffer(c, a).value.next, b).value.value
            == ReadBuffer(c, a + b).value.value
    ensures ReadBuffer(ReadBuffer(c, a).value.next, b).value.next == ReadBuffer(c, a + b).value.next
  {
    var o := c.offset;
    assert c.data[o..o + a] + c.data[o + a..o + a + b] == c.data[o..o + a + b];
  }
}

=== FILE: camera_motion.dfy ===
/** Camera motion detection (`_isCameraMovingOrJustStop`, src/ModelRenderer.ts): once
    per frame the camera's current world transform is compared with the one seen on the
    previous frame. The transform is any type with equality here; the source compares two
    4x4 matrices element by element. */
module CameraMotion {

  /** `_lastCameraTransform` and `_lastCameraMovedStatus`. */
  datatype Motion<T> = Motion(last: T, wasMoving: bool)

  /** The constructor's state: the camera's initial transform, not moving. */
  function AtRest<T>(t: T): Motion<T> {
    Motion(t, false)
  }

  /** What one call reports, and the state it leaves behind. */
  datatype Observed<T> = Observed(moving: bool, justStop: bool, next: Motion<T>)

  /** One call with the camera at `t`: moving when `t` differs from the last transform;
      just stopped when it does not, but the previous call reported moving. */
  function Observe<T(==)>(s: Motion<T>, t: T): (o: Observed<T>)
    ensures !(o.moving && o.justStop)
    ensures o.next.last == t
    ensures o.next.wasMoving == o.moving
  {
    var moving := t != s.last;
    Observed(moving, s.wasMoving && !moving, Motion(t, moving))
  }

  /** The reports of consecutive calls with the camera at `ts[0]`, `ts[1]`, ... */
  function ObserveAll<T(==)>(s: Motion<T>, ts: seq<T>): (os: seq<Observed<T>>)
    ensures |os| == |ts|
    decreases |ts|
  {
    if |ts| == 0 then []
    else
      var o := Observe(s, ts[0]);
      [o] + ObserveAll(o.next, ts[1..])
  }

  /** The transform the camera had one frame before frame `i`. */
  function Before<T>(s: Motion<T>, ts: seq<T>, i: nat): T
    requires i < |ts|
  {
    if i == 0 then s.last else ts[i - 1]
  }

  /** Frame `i` reports moving exactly when the camera moved since the previous frame,
      and just-stopped exactly when it did not, but had moved in the frame before that. */
  lemma {:induction false} ObserveAt<T>(s: Motion<T>, ts: seq<T>, i: nat)
    requires i < |ts|
    ensures ObserveAll(s, ts)[i].moving <==> ts[i] != Before(s, ts, i)
    ensures ObserveAll(s, ts)[i].justStop <==>
              ts[i] == Before(s, ts, i) && (if i == 0 then s.wasMoving else ts[i - 1] != Before(s, ts, i - 1))
    decreases i
  {
    if i > 0 {
      var o := Observe(s, ts[0]);
      ObserveAt(o.next, ts[1..], i - 1);
      assert ObserveAll(s, ts)[i] == ObserveAll(o.next, ts[1..])[i - 1];
      assert Before(o.next, ts[1..], i - 1) == Before(s, ts, i);
      if i > 1 {
        assert Before(o.next, ts[1..], i - 2) == Before(s, ts, i - 1);
      }
    }
  }

  /** `ObserveAt` for every frame. */
  lemma {:induction false} ObserveAllSpec<T>(s: Motion<T>, ts: seq<T>)
    ensures forall i :: 0 <= i < |ts| ==> (ObserveAll(s, ts)[i].moving <==> ts[i] != Before(s, ts, i))
    ensures forall i :: 0 <= i < |ts| ==>
              (ObserveAll(s, ts)[i].justStop <==>
                 ts[i] == Before(s, ts, i) && (if i == 0 then s.wasMoving else ts[i - 1] != Before(s, ts, i - 1)))
  {
    forall i | 0 <= i < |ts|
      ensures ObserveAll(s, ts)[i].moving <==> ts[i] != Before(s, ts, i)
      ensures ObserveAll(s, ts)[i].justStop <==>
                ts[i] == Before(s, ts, i) && (if i == 0 then s.wasMoving else ts[i - 1] != Before(s, ts, i - 1))
    {
      ObserveAt(s, ts, i);
    }
  }

  /** A camera at rest that stays put reports nothing and leaves the state as it was. */
  lemma {:induction false} StillCameraIsQuiet<T>(t: T)
    ensures !Observe(AtRest(t), t).moving && !Observe(AtRest(t), t).justStop
    ensures Observe(AtRest(t), t).next == AtRest(t)
  {
  }

  /** A camera that moved to `t` and stays there reports just-stopped once, then rests. */
  lemma {:induction false} StopIsReportedOnce<T>(s: Motion<T>, t: T)
    requires t != s.last
    ensures Observe(Observe(s, t).next, t).justStop
    ensures Observe(Observe(s, t).next, t).next == AtRest(t)
  {
  }
}

=== FILE: little_endian.dfy ===
/** Little-endian integer arithmetic on byte sequences: the value a sequence of bytes
    denotes when read least significant byte first, its two's-complement reading, and
    the inverse encodings used to state round trips. */
module LittleEndian {

  type byte = b: int | 0 <= b < 256

  /** 256 raised to `n`: the number of distinct values of an `n`-byte field. */
  function Pow256(n: nat): (r: int)
    ensures r >= 1
  {
    if n == 0 then 1 else 256 * Pow256(n - 1)
  }

  lemma Pow256Values()
    ensures Pow256(1) == 0x100
    ensures Pow256(2) == 0x1_0000
    ensures Pow256(4) == 0x1_0000_0000
    ensures Pow256(8) == 0x1_0000_0000_0000_0000
  {
  }

  /** The unsigned value of `bs`, least significant byte first:
      the sum of bs[k] * 256^k. */
  function Unsigned(bs: seq<byte>): (r: nat)
    ensures r < Pow256(|bs|)
  {
    if |bs| == 0 then 0 else bs[0] + 256 * Unsigned(bs[1..])
  }

  /** Two's-complement reinterpretation of an unsigned `width`-byte value. */
  function Signed(u: nat, width: nat): (r: int)
    requires u < Pow256(width)
    ensures -Pow256(width) <= 2 * r < Pow256(width)
    ensures r == u || r + Pow256(width) == u
  {
    if 2 * u >= Pow256(width) then u - Pow256(width) else u
  }

  /** The `width` bytes that encode `u` least significant byte first. */
  function UnsignedBytes(width: nat, u: nat): (bs: seq<byte>)
    requires u < Pow256(width)
    ensures |bs| == width
    ensures Unsigned(bs) == u
  {
    if width == 0 then []
    else
      var rest := UnsignedBytes(width - 1, u / 256);
      assert ([u % 256] + rest)[1..] == rest;
      [u % 256] + rest
  }

  /** The `width` bytes that encode `n` in two's complement, least significant byte first. */
  function SignedBytes(width: nat, n: int): (bs: seq<byte>)
    requires -Pow256(width) <= 2 * n < Pow256(width)
    ensures |bs| == width
    ensures Signed(Unsigned(bs), width) == n
  {
    UnsignedBytes(width, if n < 0 then n + Pow256(width) else n)
  }
}

=== FILE: loader.dfy ===
/** The loader's pure parts (src/Loader.ts): the greedy packing of mesh instances into
    render batches (`getRenderBatches`) and the list of distinct mesh collections to
    fetch (`load`). Fetching and decompression are left out. */
module Loader {
  import opened Wrappers
  import opened RenderBatch

  // ---------------------------------------------------------------------------
  // Packing

  /** The loop's state: the batches already pushed and the one being filled. */
  datatype Packing = Packing(closed: seq<Batch>, current: Batch)

  /** One iteration: offer the instance to the current batch; if it refuses, push the
      current batch, start a new one and offer the instance to it, ignoring its answer. */
  function Step(p: Packing, m: MeshInstance): Packing {
    var added := TryAdd(p.current, m);
    if added.accepted then Packing(p.closed, added.batch)
    else Packing(p.closed + [p.current], TryAdd(Fresh, m).batch)
  }

  /** The state after offering every instance of `ms` in order. */
  function PackAll(ms: seq<MeshInstance>): Packing
    decreases |ms|
  {
    if |ms| == 0 then Packing([], Fresh) else Step(PackAll(ms[..|ms| - 1]), ms[|ms| - 1])
  }

  /** `getRenderBatches`: the pushed batches followed by the last one. */
  function RenderBatches(ms: seq<MeshInstance>): seq<Batch> {
    var p := PackAll(ms);
    p.closed + [p.current]
  }

  /** `getRenderBatches` as the source writes it, a loop over the instances. */
  method GetRenderBatches(ms: seq<MeshInstance>) returns (batches: seq<Batch>)
    ensures batches == RenderBatches(ms)
  {
    batches := [];
    var batch := Fresh;
    var i := 0;
    while i < |ms|
      invariant 0 <= i <= |ms|
      invariant Packing(batches, batch) == PackAll(ms[..i])
    {
      assert ms[..i + 1][..i] == ms[..i];
      var added := TryAdd(batch, ms[i]);
      if !added.accepted {
        batches := batches + [batch];
        batch := Fresh;
        added := TryAdd(batch, ms[i]);
      }
      batch := added.batch;
      i := i + 1;
    }
    assert ms[..i] == ms;
    batches := batches + [batch];
  }

  /** The instances of `bs`, batch after batch. */
  function Flatten(bs: seq<Batch>): seq<MeshInstance>
    decreases |bs|
  {
    if |bs| == 0 then [] else Flatten(bs[..|bs| - 1]) + bs[|bs| - 1].instances
  }

  /** The instances some batch can hold: those whose own cost is below 1,000,000. */
  function Kept(ms: seq<MeshInstance>): seq<MeshInstance>
    decreases |ms|
  {
    if |ms| == 0 then []
    else Kept(ms[..|ms| - 1]) + (if Cost(ms[|ms| - 1]) < MaxTrianglesCount then [ms[|ms| - 1]] else [])
  }

  predicate NonNegativeCounts(ms: seq<MeshInstance>) {
    forall k :: 0 <= k < |ms| ==> ms[k].triangleCount >= 0
  }

  /** What the loop keeps true: every batch is valid, and, with non-negative triangle
      counts, the batches so far hold exactly the kept instances, in order. */
  lemma {:induction false} PackAllInvariant(ms: seq<MeshInstance>)
    ensures forall k :: 0 <= k < |PackAll(ms).closed| ==> Valid(PackAll(ms).closed[k])
    ensures Valid(PackAll(ms).current)
    ensures NonNegativeCounts(ms) ==> PackAll(ms).current.triangleCount >= 0
    ensures NonNegativeCounts(ms) ==> Flatten(PackAll(ms).closed) + PackAll(ms).current.instances == Kept(ms)
    decreases |ms|
  {
    if |ms| > 0 {
      var init, m := ms[..|ms| - 1], ms[|ms| - 1];
      PackAllInvariant(init);
      var p := PackAll(init);
      TryAddPreservesValid(p.current, m);
      TryAddPreservesValid(Fresh, m);
      if NonNegativeCounts(ms) {
        assert NonNegativeCounts(init) by {
          forall k | 0 <= k < |init| ensures init[k].triangleCount >= 0 {
            assert init[k] == ms[k];
          }
        }
        assert m.triangleCount >= 0;
        assert (p.closed + [p.current])[..|p.closed|] == p.closed;
      }
    }
  }

  /** `getRenderBatches` returns at least one batch, every one of them valid. */
  lemma {:induction false} RenderBatchesValid(ms: seq<MeshInstance>)
    ensures |RenderBatches(ms)| >= 1
    ensures forall k :: 0 <= k < |RenderBatches(ms)| ==> Valid(RenderBatches(ms)[k])
  {
    PackAllInvariant(ms);
  }

  /** No instances: exactly one, empty, batch. */
  lemma {:induction false} NoInstancesOneEmptyBatch()
    ensures RenderBatches([]) == [Batch([], 0)]
  {
  }

  /** With non-negative triangle counts, the batches in order hold the input in order
      minus every instance whose own cost is at least 1,000,000: such an instance is
      dropped, because the answer of the second `tryAdd` is ignored. */
  lemma {:induction false} RenderBatchesKeepCheapInstances(ms: seq<MeshInstance>)
    requires NonNegativeCounts(ms)
    ensures Flatten(RenderBatches(ms)) == Kept(ms)
  {
    PackAllInvariant(ms);
    var p := PackAll(ms);
    assert (p.closed + [p.current])[..|p.closed|] == p.closed;
  }

  /** Batch k of the pushed ones was pushed while instance j was offered: it is the
      batch being filled after the first j instances, k batches had been pushed before
      it, and it refused instance j. */
  predicate PushedAt(ms: seq<MeshInstance>, k: int, j: int) {
    && 0 <= j < |ms|
    && 0 <= k < |PackAll(ms).closed|
    && |PackAll(ms[..j]).closed| == k
    && PackAll(ms[..j]).current == PackAll(ms).closed[k]
    && !TryAdd(PackAll(ms[..j]).current, ms[j]).accepted
  }

  /** Batch k was pushed at some instance. */
  predicate PushedSomewhere(ms: seq<MeshInstance>, k: int) {
    exists j :: 0 <= j < |ms| && PushedAt(ms, k, j)
  }

  /** Packing more instances only appends to the pushed batches. */
  lemma {:induction false} ClosedGrows(ms: seq<MeshInstance>, i: nat)
    requires i <= |ms|
    ensures |PackAll(ms[..i]).closed| <= |PackAll(ms).closed|
    ensures PackAll(ms).closed[..|PackAll(ms[..i]).closed|] == PackAll(ms[..i]).closed
    decreases |ms|
  {
    if i < |ms| {
      var init := ms[..|ms| - 1];
      assert init[..i] == ms[..i];
      ClosedGrows(init, i);
      var p := PackAll(init);
      assert PackAll(ms).closed[..|p.closed|] == p.closed;
    } else {
      assert ms[..i] == ms;
    }
  }

  /** A batch is pushed only after it refused an instance: each pushed batch was pushed
      at some instance, in the sense of `PushedAt`. */
  lemma {:induction false} ClosedBatchesRefused(ms: seq<MeshInstance>)
    ensures forall k :: 0 <= k < |PackAll(ms).closed| ==> PushedSomewhere(ms, k)
    decreases |ms|
  {
    if |ms| > 0 {
      var init, m := ms[..|ms| - 1], ms[|ms| - 1];
      ClosedBatchesRefused(init);
      var p := PackAll(init);
      var q := PackAll(ms);
      forall k | 0 <= k < |q.closed|
        ensures PushedSomewhere(ms, k)
      {
        if k < |p.closed| {
          assert PushedSomewhere(init, k);
          var j :| 0 <= j < |init| && PushedAt(init, k, j);
          assert init[..j] == ms[..j] && init[j] == ms[j];
          assert q.closed[..|p.closed|] == p.closed;
          assert PushedAt(ms, k, j);
        } else {
          // Only a refusal pushes a batch, and the pushed batch is the previous current one.
          assert !TryAdd(p.current, m).accepted && q.closed == p.closed + [p.current];
          assert ms[..|ms| - 1] == init;
          assert PushedAt(ms, k, |ms| - 1);
        }
      }
    }
  }

  /** Conversely, every refusal pushes a batch: when instance j is refused by the batch
      being filled, that batch is pushed as the next one. */
  lemma {:induction false} RefusalPushes(ms: seq<MeshInstance>, j: nat)
    requires j < |ms| && !TryAdd(PackAll(ms[..j]).current, ms[j]).accepted
    ensures PushedAt(ms, |PackAll(ms[..j]).closed|, j)
  {
    var p := PackAll(ms[..j]);
    assert ms[..j + 1][..j] == ms[..j];
    assert PackAll(ms[..j + 1]).closed == p.closed + [p.current];
    ClosedGrows(ms, j + 1);
    var closed := PackAll(ms).closed;
    assert closed[..|p.closed| + 1][|p.closed|] == p.current;
  }

  // ---------------------------------------------------------------------------
  // Packing instances of one uniform cost

  /** How many instances of cost `k` a batch takes before refusing the next one. */
  function Capacity(k: int): int
    requires 0 < k < MaxTrianglesCount
  {
    if MaxObjectsCount * k < MaxTrianglesCount then MaxObjectsCount else (MaxTrianglesCount - 1) / k
  }

  lemma {:induction false} MulMonotone(a: nat, b: nat, k: nat)
    requires a <= b
    ensures a * k <= b * k
  {
  }

  lemma {:induction false} MulBelowIff(a: nat, k: int, n: nat)
    requires k > 0
    ensures a * k <= n <==> a <= n / k
  {
    var q := n / k;
    assert n == k * q + n % k;
    if a <= q {
      MulMonotone(a, q, k);
    } else {
      MulMonotone(q + 1, a, k);
      assert (q + 1) * k == q * k + k;
    }
  }

  /** A batch of j instances of cost k takes one more exactly while j + 1 is within
      the capacity. */
  lemma {:induction false} CapacityAccepts(j: nat, k: int)
    requires 0 < k < MaxTrianglesCount
    ensures 1 <= Capacity(k) <= MaxObjectsCount
    ensures (j < MaxObjectsCount && j * k + k < MaxTrianglesCount) <==> j + 1 <= Capacity(k)
  {
    var next := j * k + k;
    assert next == (j + 1) * k;
    if 1000 * k < 1_000_000 {
      assert Capacity(k) == 1000;
      if j < 1000 {
        MulMonotone(j + 1, 1000, k);
      }
    } else {
      var c := 999_999 / k;
      assert Capacity(k) == c;
      MulBelowIff(1, k, 999_999);
      MulBelowIff(1000, k, 999_999);
      MulBelowIff(j + 1, k, 999_999);
    }
  }

  predicate UniformCost(ms: seq<MeshInstance>, k: int) {
    forall i :: 0 <= i < |ms| ==> Cost(ms[i]) == k
  }

  /** The shape of the packing of n instances of cost k: every pushed batch is full
      (Capacity(k) instances) and the one being filled holds the remaining 1..Capacity(k). */
  predicate UniformShape(p: Packing, n: int, k: int)
    requires 0 < k < MaxTrianglesCount
  {
    && n == Capacity(k) * |p.closed| + |p.current.instances|
    && 1 <= |p.current.instances| <= Capacity(k)
    && p.current.triangleCount == |p.current.instances| * k
    && forall b :: b in p.closed ==> |b.instances| == Capacity(k)
  }

  /** Offering one more instance of cost k keeps the shape. */
  lemma {:induction false} UniformStep(p: Packing, m: MeshInstance, n: int, k: int)
    requires 0 < k < MaxTrianglesCount && Cost(m) == k && UniformShape(p, n, k)
    ensures UniformShape(Step(p, m), n + 1, k)
  {
    var c := Capacity(k);
    var j := |p.current.instances|;
    CapacityAccepts(j, k);
    if j + 1 <= c {
      assert (j + 1) * k == j * k + k;
    } else {
      CapacityAccepts(0, k);
      assert c * (|p.closed| + 1) == c * |p.closed| + c;
    }
  }

  /** With every cost equal to k, all pushed batches are full (Capacity(k) instances)
      and the last holds the remaining 1..Capacity(k). */
  lemma {:induction false} UniformPacking(ms: seq<MeshInstance>, k: int)
    requires 0 < k < MaxTrianglesCount && UniformCost(ms, k) && |ms| >= 1
    ensures |ms| == Capacity(k) * |PackAll(ms).closed| + |PackAll(ms).current.instances|
    ensures 1 <= |PackAll(ms).current.instances| <= Capacity(k)
    ensures PackAll(ms).current.triangleCount == |PackAll(ms).current.instances| * k
    ensures forall b :: b in PackAll(ms).closed ==> |b.instances| == Capacity(k)
    decreases |ms|
  {
    var init, m := ms[..|ms| - 1], ms[|ms| - 1];
    if |init| == 0 {
      CapacityAccepts(0, k);
    } else {
      assert UniformCost(init, k) by {
        forall i | 0 <= i < |init| ensures Cost(init[i]) == k {
          assert init[i] == ms[i];
        }
      }
      UniformPacking(init, k);
      UniformStep(PackAll(init), m, |init|, k);
    }
  }

  lemma {:induction false} UniformRenderBatches(ms: seq<MeshInstance>, k: int)
    requires 0 < k < MaxTrianglesCount && UniformCost(ms, k) && |ms| >= 1
    ensures |ms| == Capacity(k) * (|RenderBatches(ms)| - 1) + |RenderBatches(ms)[|RenderBatches(ms)| - 1].instances|
    ensures forall i :: 0 <= i < |RenderBatches(ms)| - 1 ==> |RenderBatches(ms)[i].instances| == Capacity(k)
    ensures 1 <= |RenderBatches(ms)[|RenderBatches(ms)| - 1].instances| <= Capacity(k)
  {
    UniformPacking(ms, k);
    var p := PackAll(ms);
    forall i | 0 <= i < |RenderBatches(ms)| - 1 ensures |RenderBatches(ms)[i].instances| == Capacity(k) {
      assert RenderBatches(ms)[i] == p.closed[i];
      assert p.closed[i] in p.closed;
    }
  }

  /** 1500 instances with zero triangles cost 1000 each; a batch fills at 999 (a 1000th
      would make the total exactly 1,000,000), so they pack as 999 + 501. */
  lemma {:induction false} ZeroCountsPackAs999And501(ms: seq<MeshInstance>)
    requires |ms| == 1500 && forall i :: 0 <= i < |ms| ==> ms[i].triangleCount == 0
    ensures |RenderBatches(ms)| == 2
    ensures |RenderBatches(ms)[0].instances| == 999 && |RenderBatches(ms)[1].instances| == 501
  {
    assert Capacity(1000) == 999;
    UniformRenderBatches(ms, 1000);
    var n := |RenderBatches(ms)|;
    assert 1500 == 999 * (n - 1) + |RenderBatches(ms)[n - 1].instances|;
  }

  /** 1500 instances of one triangle each: the count cap cuts at 1000, so 1000 + 500. */
  lemma {:induction false} UnitCountsPackAs1000And500(ms: seq<MeshInstance>)
    requires |ms| == 1500 && forall i :: 0 <= i < |ms| ==> ms[i].triangleCount == 1
    ensures |RenderBatches(ms)| == 2
    ensures |RenderBatches(ms)[0].instances| == 1000 && |RenderBatches(ms)[1].instances| == 500
  {
    assert Capacity(1) == 1000;
    UniformRenderBatches(ms, 1);
    var n := |RenderBatches(ms)|;
    assert 1500 == 1000 * (n - 1) + |RenderBatches(ms)[n - 1].instances|;
  }

  // ---------------------------------------------------------------------------
  // The collections to fetch

  /** `meshId[0]`, which JavaScript reads as `undefined` (here `None`) when the array
      is empty. */
  function CollectionIdOf(m: MeshInstance): Option<string> {
    if |m.meshId| > 0 then Some(m.meshId[0]) else None
  }

  function CollectionIdsOf(ms: seq<MeshInstance>): (ids: seq<Option<string>>)
    ensures |ids| == |ms|
    ensures forall i :: 0 <= i < |ms| ==> ids[i] == CollectionIdOf(ms[i])
  {
    seq(|ms|, i requires 0 <= i < |ms| => CollectionIdOf(ms[i]))
  }

  /** `[...new Set(xs)]`: each value once, in order of first occurrence. */
  function Distinct<T(==)>(xs: seq<T>): seq<T>
    decreases |xs|
  {
    if |xs| == 0 then []
    else
      var d := Distinct(xs[..|xs| - 1]);
      if xs[|xs| - 1] in d then d else d + [xs[|xs| - 1]]
  }

  /** The position of the first occurrence of `x` in `xs`. */
  function FirstIndex<T(==)>(xs: seq<T>, x: T): (i: nat)
    requires x in xs
    ensures i < |xs| && xs[i] == x && x !in xs[..i]
    decreases |xs|
  {
    var init := xs[..|xs| - 1];
    if x in init then
      var i := FirstIndex(init, x);
      assert xs[..i] == init[..i];
      i
    else
      assert xs[..|xs| - 1] == init;
      |xs| - 1
  }

  lemma {:induction false} FirstIndexAppend<T>(xs: seq<T>, y: T, x: T)
    requires x in xs
    ensures FirstIndex(xs + [y], x) == FirstIndex(xs, x)
  {
    assert (xs + [y])[..|xs|] == xs;
  }

  /** A value is in `Distinct(xs)` exactly when it is in `xs`. */
  lemma {:induction false} DistinctMember<T>(xs: seq<T>, x: T)
    ensures x in Distinct(xs) <==> x in xs
    decreases |xs|
  {
    if |xs| > 0 {
      var init := xs[..|xs| - 1];
      DistinctMember(init, x);
      assert xs == init + [xs[|xs| - 1]];
    }
  }

  /** `Distinct` holds every value of `xs` exactly once, ordered by first occurrence. */
  lemma {:induction false} DistinctSpec<T>(xs: seq<T>)
    ensures forall x :: x in Distinct(xs) <==> x in xs
    ensures forall i, j :: 0 <= i < j < |Distinct(xs)| ==> Distinct(xs)[i] != Distinct(xs)[j]
    ensures forall i, j :: 0 <= i < j < |Distinct(xs)| ==>
              FirstIndex(xs, Distinct(xs)[i]) < FirstIndex(xs, Distinct(xs)[j])
    decreases |xs|
  {
    forall x ensures x in Distinct(xs) <==> x in xs {
      DistinctMember(xs, x);
    }
    if |xs| > 0 {
      var init, y := xs[..|xs| - 1], xs[|xs| - 1];
      DistinctSpec(init);
      assert xs == init + [y];
      var d := Distinct(init);
      forall x | x in d ensures FirstIndex(xs, x) == FirstIndex(init, x) {
        DistinctMember(init, x);
        FirstIndexAppend(init, y, x);
      }
      if y !in d {
        DistinctMember(init, y);
        assert FirstIndex(xs, y) == |xs| - 1;
        forall i, j | 0 <= i < j < |d + [y]|
          ensures FirstIndex(xs, (d + [y])[i]) < FirstIndex(xs, (d + [y])[j])
        {
          if j == |d| {
            assert (d + [y])[i] == d[i];
          } else {
            assert (d + [y])[i] == d[i] && (d + [y])[j] == d[j];
          }
        }
      }
    }
  }

  /** The collections `load` fetches: the distinct `meshId[0]` values of the instances,
      in first-occurrence order. */
  function CollectionIds(ms: seq<MeshInstance>): seq<Option<string>> {
    Distinct(CollectionIdsOf(ms))
  }

  lemma {:induction false} CollectionIdsSpec(ms: seq<MeshInstance>)
    ensures forall x :: x in CollectionIds(ms) <==> x in CollectionIdsOf(ms)
    ensures forall i, j :: 0 <= i < j < |CollectionIds(ms)| ==> CollectionIds(ms)[i] != CollectionIds(ms)[j]
    ensures forall i, j :: 0 <= i < j < |CollectionIds(ms)| ==>
              FirstIndex(CollectionIdsOf(ms), CollectionIds(ms)[i]) < FirstIndex(CollectionIdsOf(ms), CollectionIds(ms)[j])
  {
    var ids := CollectionIdsOf(ms);
    DistinctSpec(ids);
    forall x ensures x in CollectionIds(ms) <==> x in ids {
      DistinctMember(ids, x);
    }
  }
}

=== FILE: mesh_collection.dfy ===
/** The mesh-collection decoder (`Loader._parseMeshCollection`): a length-prefixed
    collection name, an int32 record count, then per record a discarded byte count,
    the mesh id, a discarded topology, the positions, the index triples, an optional
    normals section and an optional (discarded) UV section. Each record is stored
    under its id; records decoded before a failing read stay stored. */
module MeshCollection {
  import opened Wrappers
  import opened LittleEndian
  import opened BufferReader

  /** A decoded mesh (the `Mesh` shape): flat position, index and normal arrays.
      Position and normal x components are negated on read; `normals` is empty,
      never absent, when the record has no normals section. */
  datatype Mesh = Mesh(vertices: seq<Float32>, indices: seq<int>, normals: seq<Float32>)

  /** The count fields one record declared; they fix how many bytes the record spans. */
  datatype Layout = Layout(
    idLength: int,
    vertexCount: int,
    indexCount: int,
    normalCount: Option<int>,
    uvCount: Option<int>)

  /** One decoded record: the id it is stored under, the mesh, and its layout. */
  datatype Entry = Entry(id: seq<byte>, mesh: Mesh, layout: Layout)

  /** `meshCollections`: mesh id to mesh. */
  type Store = map<seq<byte>, Mesh>

  /** The records a decode produced, and the read error that stopped it, if any. */
  datatype Decoded = Decoded(entries: seq<Entry>, failure: Option<ReadError>)

  /** The store after a decode, and the read error that stopped it, if any. */
  datatype Parsed = Parsed(store: Store, failure: Option<ReadError>)

  /** Iterations of `for (let v = 0; v < n; v++)`. */
  function Repeats(n: int): (t: nat)
    ensures n >= 0 ==> t == n
    ensures n <= 0 ==> t == 0
  {
    if n < 0 then 0 else n
  }

  /** Iterations of `for (let v = 0; v < n / 3; v++)`, where `/` is real division. */
  function IndexTriples(n: int): nat
  {
    if n <= 0 then 0 else (n + 2) / 3
  }

  /** `IndexTriples(n)` counts exactly the naturals v with v < n / 3 over the reals:
      ceil(n / 3) of them when n > 0, none otherwise. */
  lemma {:induction false} IndexTriplesCountsLoop(n: int, v: nat)
    ensures v < IndexTriples(n) <==> (v as real) < (n as real) / 3.0
    ensures n > 0 ==> 3 * (IndexTriples(n) - 1) < n <= 3 * IndexTriples(n)
  {
    assert (v as real) < (n as real) / 3.0 <==> 3 * v < n;
  }

  /** Bytes spanned by the normals section: the flag, then, when present, the count and
      the triples. */
  function NormalsSectionSize(count: Option<int>): int {
    match count
    case None => 1
    case Some(n) => 5 + 12 * Repeats(n)
  }

  /** Bytes spanned by the UV section: the flag, then, when present, the count and the pairs. */
  function UvSectionSize(count: Option<int>): int {
    match count
    case None => 1
    case Some(n) => 5 + 8 * Repeats(n)
  }

  /** The number of bytes a record with layout `l` spans. */
  function RecordSize(l: Layout): int
  {
    (12 + l.idLength)
    + (8 + 12 * Repeats(l.vertexCount) + 12 * IndexTriples(l.indexCount))
    + NormalsSectionSize(l.normalCount)
    + UvSectionSize(l.uvCount)
  }

  /** The shape an entry's arrays have, given the counts its record declared. */
  predicate WellShaped(e: Entry) {
    && IsInt32(e.layout.idLength)
    && IsInt32(e.layout.vertexCount)
    && IsInt32(e.layout.indexCount)
    && |e.id| == Repeats(e.layout.idLength)
    && |e.mesh.vertices| == 3 * Repeats(e.layout.vertexCount)
    && |e.mesh.indices| == 3 * IndexTriples(e.layout.indexCount)
    && match e.layout.normalCount
       case None => e.mesh.normals == []
       case Some(n) => IsInt32(n) && |e.mesh.normals| == 3 * Repeats(n)
  }

  /** Element j of `values` is the float at offset + 4j, negated when j is an x slot
      (j a multiple of 3). */
  predicate NegatedTriplesAt(data: seq<byte>, offset: int, values: seq<Float32>)
    requires 0 <= offset && offset + 4 * |values| <= |data|
  {
    forall j :: 0 <= j < |values| ==>
      values[j] == if j % 3 == 0 then Negate32(Float32At(data, offset + 4 * j))
                   else Float32At(data, offset + 4 * j)
  }

  /** Element j of `values` is the int32 at offset + 4j. */
  predicate Int32sAt(data: seq<byte>, offset: int, values: seq<int>)
    requires 0 <= offset && offset + 4 * |values| <= |data|
  {
    forall j :: 0 <= j < |values| ==> values[j] == Int32At(data, offset + 4 * j)
  }

  lemma {:induction false} NegatedTriplesAtCons(data: seq<byte>, offset: int, triple: seq<Float32>, rest: seq<Float32>)
    requires |triple| == 3 && 0 <= offset && offset + 12 + 4 * |rest| <= |data|
    requires triple[0] == Negate32(Float32At(data, offset))
    requires triple[1] == Float32At(data, offset + 4)
    requires triple[2] == Float32At(data, offset + 8)
    requires NegatedTriplesAt(data, offset + 12, rest)
    ensures NegatedTriplesAt(data, offset, triple + rest)
  {
    var all := triple + rest;
    forall j | 0 <= j < |all|
      ensures all[j] == if j % 3 == 0 then Negate32(Float32At(data, offset + 4 * j))
                        else Float32At(data, offset + 4 * j)
    {
      if j >= 3 {
        var i := j - 3;
        assert all[j] == rest[i];
        assert i % 3 == j % 3;
        assert offset + 12 + 4 * i == offset + 4 * j;
      }
    }
  }

  lemma {:induction false} Int32sAtCons(data: seq<byte>, offset: int, triple: seq<int>, rest: seq<int>)
    requires |triple| == 3 && 0 <= offset && offset + 12 + 4 * |rest| <= |data|
    requires triple[0] == Int32At(data, offset)
    requires triple[1] == Int32At(data, offset + 4)
    requires triple[2] == Int32At(data, offset + 8)
    requires Int32sAt(data, offset + 12, rest)
    ensures Int32sAt(data, offset, triple + rest)
  {
    var all := triple + rest;
    forall j | 3 <= j < |all|
      ensures all[j] == Int32At(data, offset + 4 * j)
    {
      assert all[j] == rest[j - 3];
      assert offset + 12 + 4 * (j - 3) == offset + 4 * j;
    }
  }

  /** One x, y, z float triple with x negated. */
  function ReadNegatedTriple(c: Cursor): (r: Outcome<seq<Float32>>)
    ensures r.Ok? <==> InBounds(c, 12)
    ensures r.Ok? ==> r.value.next == c.(offset := c.offset + 12)
    ensures r.Ok? ==> r.value.value == [Negate32(Float32At(c.data, c.offset)),
                                        Float32At(c.data, c.offset + 4),
                                        Float32At(c.data, c.offset + 8)]
  {
    var x :- ReadFloat32(c);
    var y :- ReadFloat32(x.next);
    var z :- ReadFloat32(y.next);
    Ok(Read([Negate32(x.value), y.value, z.value], z.next))
  }

  /** `count` x, y, z float triples with x negated: the positions loop and the normals loop. */
  function ReadNegatedTriples(c: Cursor, count: nat): (r: Outcome<seq<Float32>>)
    ensures r.Ok? <==> count == 0 || InBounds(c, 12 * count)
    ensures r.Ok? ==> r.value.next == c.(offset := c.offset + 12 * count)
    ensures r.Ok? ==> |r.value.value| == 3 * count
    ensures r.Ok? && count > 0 ==> NegatedTriplesAt(c.data, c.offset, r.value.value)
    decreases count
  {
    if count == 0 then Ok(Read([], c))
    else
      assert 12 * count == 12 + 12 * (count - 1);
      var triple :- ReadNegatedTriple(c);
      var rest :- ReadNegatedTriples(triple.next, count - 1);
      NegatedTriplesAtCons(c.data, c.offset, triple.value, rest.value);
      Ok(Read(triple.value + rest.value, rest.next))
  }

  /** One triple of int32 indices. */
  function ReadIndexTriple(c: Cursor): (r: Outcome<seq<int>>)
    ensures r.Ok? <==> InBounds(c, 12)
    ensures r.Ok? ==> r.value.next == c.(offset := c.offset + 12)
    ensures r.Ok? ==> r.value.value == [Int32At(c.data, c.offset), Int32At(c.data, c.offset + 4),
                                        Int32At(c.data, c.offset + 8)]
  {
    var a :- ReadInt32(c);
    var b :- ReadInt32(a.next);
    var d :- ReadInt32(b.next);
    Ok(Read([a.value, b.value, d.value], d.next))
  }

  /** `count` triples of int32 indices, stored unchanged with no range check. */
  function ReadIndexTriples(c: Cursor, count: nat): (r: Outcome<seq<int>>)
    ensures r.Ok? <==> count == 0 || InBounds(c, 12 * count)
    ensures r.Ok? ==> r.value.next == c.(offset := c.offset + 12 * count)
    ensures r.Ok? ==> |r.value.value| == 3 * count
    ensures r.Ok? && count > 0 ==> Int32sAt(c.data, c.offset, r.value.value)
    decreases count
  {
    if count == 0 then Ok(Read([], c))
    else
      assert 12 * count == 12 + 12 * (count - 1);
      var triple :- ReadIndexTriple(c);
      var rest :- ReadIndexTriples(triple.next, count - 1);
      Int32sAtCons(c.data, c.offset, triple.value, rest.value);
      Ok(Read(triple.value + rest.value, rest.next))
  }

  /** `count` (u, v) float pairs, read and discarded. */
  function SkipUvPairs(c: Cursor, count: nat): (r: Outcome<()>)
    ensures r.Ok? <==> count == 0 || InBounds(c, 8 * count)
    ensures r.Ok? ==> r.value.next == c.(offset := c.offset + 8 * count)
    decreases count
  {
    if count == 0 then Ok(Read((), c))
    else
      var u :- ReadFloat32(c);
      var v :- ReadFloat32(u.next);
      SkipUvPairs(v.next, count - 1)
  }

  /** The optional normals section: an int8 flag; any non-zero flag is followed by an
      int32 count and that many negated triples. Yields the normals and the count. */
  function ReadNormalsSection(c: Cursor): (r: Outcome<(seq<Float32>, Option<int>)>)
    ensures r.Ok? <==>
      && InBounds(c, 1)
      && (|| c.data[c.offset] == 0
          || (InBounds(c, 5) && InBounds(c.(offset := c.offset + 5), 12 * Repeats(Int32At(c.data, c.offset + 1)))))
    ensures r.Ok? ==> InBounds(c, 1)
    ensures r.Ok? ==> (r.value.value.1.None? <==> c.data[c.offset] == 0)
    ensures r.Ok? ==> r.value.next == c.(offset := c.offset + NormalsSectionSize(r.value.value.1))
    ensures r.Ok? && r.value.value.1.None? ==> r.value.value.0 == []
    ensures r.Ok? && r.value.value.1.Some? ==>
      && InBounds(c, 5)
      && r.value.value.1.value == Int32At(c.data, c.offset + 1)
      && |r.value.value.0| == 3 * Repeats(r.value.value.1.value)
    ensures r.Ok? ==> r.value.next.offset <= |c.data|
    ensures r.Ok? && r.value.value.1.Some? && r.value.value.1.value > 0 ==>
      NegatedTriplesAt(c.data, c.offset + 5, r.value.value.0)
  {
    ReadNormalsSectionDelayed(c, |c.data| + 1)
  }

  /** `ReadNormalsSection` behind a countdown (see `At`). */
  function ReadNormalsSectionDelayed(c: Cursor, steps: nat): (r: Outcome<(seq<Float32>, Option<int>)>)
    ensures r.Ok? <==>
      && InBounds(c, 1)
      && (|| c.data[c.offset] == 0
          || (InBounds(c, 5) && InBounds(c.(offset := c.offset + 5), 12 * Repeats(Int32At(c.data, c.offset + 1)))))
    ensures r.Ok? ==> InBounds(c, 1)
    ensures r.Ok? ==> (r.value.value.1.None? <==> c.data[c.offset] == 0)
    ensures r.Ok? ==> r.value.next == c.(offset := c.offset + NormalsSectionSize(r.value.value.1))
    ensures r.Ok? && r.value.value.1.None? ==> r.value.value.0 == []
    ensures r.Ok? && r.value.value.1.Some? ==>
      && InBounds(c, 5)
      && r.value.value.1.value == Int32At(c.data, c.offset + 1)
      && |r.value.value.0| == 3 * Repeats(r.value.value.1.value)
    ensures r.Ok? ==> r.value.next.offset <= |c.data|
    ensures r.Ok? && r.value.value.1.Some? && r.value.value.1.value > 0 ==>
      NegatedTriplesAt(c.data, c.offset + 5, r.value.value.0)
    decreases steps
  {
    if steps > 0 then ReadNormalsSectionDelayed(c, steps - 1)
    else
      var flag :- ReadInt8(c);
      ReadInt8Value(c);
      if flag.value == 0 then Ok(Read(([], None), flag.next))
      else
        var count :- ReadInt32(flag.next);
        var normals :- ReadNegatedTriples(count.next, Repeats(count.value));
        Ok(Read((normals.value, Some(count.value)), normals.next))
  }

  lemma {:induction false} ReadNormalsSectionDelayedValue(c: Cursor, steps: nat)
    ensures ReadNormalsSectionDelayed(c, steps) == ReadNormalsSectionDelayed(c, 0)
    decreases steps
  {
    if steps > 0 {
      ReadNormalsSectionDelayedValue(c, steps - 1);
    }
  }

  /** The optional UV section: an int8 flag; any non-zero flag is followed by an int32
      count and that many discarded pairs. Yields the count when the section is present. */
  function SkipUvSection(c: Cursor): (r: Outcome<Option<int>>)
    ensures r.Ok? <==>
      && InBounds(c, 1)
      && (|| c.data[c.offset] == 0
          || (InBounds(c, 5) && InBounds(c.(offset := c.offset + 5), 8 * Repeats(Int32At(c.data, c.offset + 1)))))
    ensures r.Ok? ==> InBounds(c, 1)
    ensures r.Ok? ==> (r.value.value.None? <==> c.data[c.offset] == 0)
    ensures r.Ok? ==> r.value.next == c.(offset := c.offset + UvSectionSize(r.value.value))
    ensures r.Ok? ==> r.value.next.offset <= |c.data|
    ensures r.Ok? && r.value.value.Some? ==>
      InBounds(c, 5) && r.value.value.value == Int32At(c.data, c.offset + 1)
  {
    var flag :- ReadInt8(c);
    ReadInt8Value(c);
    if flag.value == 0 then Ok(Read(None, flag.next))
    else
      var count :- ReadInt32(flag.next);
      var skipped :- SkipUvPairs(count.next, Repeats(count.value));
      Ok(Read(Some(count.value), skipped.next))
  }

  /** The start of a record: the discarded byte count, the id, the discarded topology.
      Yields the id and its declared length. */
  function ReadRecordHeader(c: Cursor): (r: Outcome<(seq<byte>, int)>)
    ensures r.Ok? <==> InBounds(c, 8) && InBounds(c.(offset := c.offset + 8 + Int32At(c.data, c.offset + 4)), 4)
    ensures r.Ok? ==> InBounds(c, 8) && r.value.value.1 == Int32At(c.data, c.offset + 4)
    ensures r.Ok? ==> |r.value.value.0| == Repeats(r.value.value.1)
    ensures r.Ok? ==> r.value.next == c.(offset := c.offset + 12 + r.value.value.1)
    ensures r.Ok? ==> r.value.next.offset <= |c.data|
    ensures r.Ok? ==> r.value.value.0 == if r.value.value.1 < 0 then []
                                         else BytesAt(c.data, c.offset + 8, r.value.value.1)
  {
    ReadRecordHeaderDelayed(c, |c.data| + 1)
  }

  /** `ReadRecordHeader` behind a countdown (see `At`). */
  function ReadRecordHeaderDelayed(c: Cursor, steps: nat): (r: Outcome<(seq<byte>, int)>)
    ensures r.Ok? <==> InBounds(c, 8) && InBounds(c.(offset := c.offset + 8 + Int32At(c.data, c.offset + 4)), 4)
    ensures r.Ok? ==> InBounds(c, 8) && r.value.value.1 == Int32At(c.data, c.offset + 4)
    ensures r.Ok? ==> |r.value.value.0| == Repeats(r.value.value.1)
    ensures r.Ok? ==> r.value.next == c.(offset := c.offset + 12 + r.value.value.1)
    ensures r.Ok? ==> r.value.next.offset <= |c.data|
    ensures r.Ok? ==> r.value.value.0 == if r.value.value.1 < 0 then []
                                         else BytesAt(c.data, c.offset + 8, r.value.value.1)
    decreases steps
  {
    if steps > 0 then ReadRecordHeaderDelayed(c, steps - 1)
    else
      var byteCount :- ReadInt32(c);
      var id :- ReadUtf8String(byteCount.next);
      var topology :- ReadInt32(id.next);
      Ok(Read((id.value, Int32At(c.data, c.offset + 4)), topology.next))
  }

  lemma {:induction false} ReadRecordHeaderDelayedValue(c: Cursor, steps: nat)
    ensures ReadRecordHeaderDelayed(c, steps) == ReadRecordHeaderDelayed(c, 0)
    decreases steps
  {
    if steps > 0 {
      ReadRecordHeaderDelayedValue(c, steps - 1);
    }
  }

  /** The geometry of a record: the vertex count and positions, then the index count and
      ceil(count / 3) index triples. Yields both arrays and both declared counts. */
  function ReadGeometry(c: Cursor): (r: Outcome<(seq<Float32>, seq<int>, int, int)>)
    ensures r.Ok? ==> IsInt32(r.value.value.2) && IsInt32(r.value.value.3)
    ensures r.Ok? ==> |r.value.value.0| == 3 * Repeats(r.value.value.2)
    ensures r.Ok? ==> |r.value.value.1| == 3 * IndexTriples(r.value.value.3)
    ensures r.Ok? ==> r.value.next == c.(offset := c.offset + 8 + 12 * Repeats(r.value.value.2)
                                                  + 12 * IndexTriples(r.value.value.3))
  {
    ReadGeometryDelayed(c, |c.data| + 1)
  }

  /** `ReadGeometry` behind a countdown (see `At`). */
  function ReadGeometryDelayed(c: Cursor, steps: nat): (r: Outcome<(seq<Float32>, seq<int>, int, int)>)
    ensures r.Ok? ==> IsInt32(r.value.value.2) && IsInt32(r.value.value.3)
    ensures r.Ok? ==> |r.value.value.0| == 3 * Repeats(r.value.value.2)
    ensures r.Ok? ==> |r.value.value.1| == 3 * IndexTriples(r.value.value.3)
    ensures r.Ok? ==> r.value.next == c.(offset := c.offset + 8 + 12 * Repeats(r.value.value.2)
                                                  + 12 * IndexTriples(r.value.value.3))
    decreases steps
  {
    if steps > 0 then ReadGeometryDelayed(c, steps - 1)
    else
      var vertexCount :- ReadInt32(c);
      var vertices :- ReadNegatedTriples(vertexCount.next, Repeats(vertexCount.value));
      var indexCount :- ReadInt32(vertices.next);
      var indices :- ReadIndexTriples(indexCount.next, IndexTriples(indexCount.value));
      Ok(Read((vertices.value, indices.value, vertexCount.value, indexCount.value), indices.next))
  }

  lemma {:induction false} ReadGeometryDelayedValue(c: Cursor, steps: nat)
    ensures ReadGeometryDelayed(c, steps) == ReadGeometryDelayed(c, 0)
    decreases steps
  {
    if steps > 0 {
      ReadGeometryDelayedValue(c, steps - 1);
    }
  }

  /** A successful `ReadGeometry` is four successful reads, each starting where the
      previous one ended. */
  lemma {:induction false} GeometrySteps(c: Cursor)
    returns (p: Read<int>, vs: Read<seq<Float32>>, q: Read<int>, xs: Read<seq<int>>)
    requires ReadGeometry(c).Ok?
    ensures ReadInt32(c) == Ok(p)
    ensures ReadNegatedTriples(p.next, Repeats(p.value)) == Ok(vs)
    ensures ReadInt32(vs.next) == Ok(q)
    ensures ReadIndexTriples(q.next, IndexTriples(q.value)) == Ok(xs)
    ensures ReadGeometry(c) == Ok(Read((vs.value, xs.value, p.value, q.value), xs.next))
  {
    ReadGeometryDelayedValue(c, |c.data| + 1);
    p := ReadInt32(c).value;
    vs := ReadNegatedTriples(p.next, Repeats(p.value)).value;
    q := ReadInt32(vs.next).value;
    xs := ReadIndexTriples(q.next, IndexTriples(q.value)).value;
  }

  /** When the geometry reads: the vertex count, 12 bytes per vertex, the index count and
      12 bytes per index triple must all lie inside the buffer; nothing else is checked. */
  lemma {:induction false} ReadGeometrySucceeds(c: Cursor)
    ensures ReadGeometry(c).Ok? <==>
      && InBounds(c, 4)
      && var p := c.offset + 4 + 12 * Repeats(Int32At(c.data, c.offset));
         && InBounds(c.(offset := p), 4)
         && InBounds(c.(offset := p + 4), 12 * IndexTriples(Int32At(c.data, p)))
  {
    ReadGeometryDelayedValue(c, |c.data| + 1);
    if InBounds(c, 4) {
      var n := ReadInt32(c).value;
      var k := Repeats(n.value);
      var p := c.offset + 4 + 12 * k;
      var vs := ReadNegatedTriples(n.next, k);
      assert vs.Ok? <==> InBounds(c.(offset := p), 0);
      if vs.Ok? {
        assert vs.value.next == c.(offset := p);
      }
    }
  }

  /** What the geometry holds: position j is the float at offset 4 + 4j, x slots
      negated. */
  lemma {:induction false} ReadGeometryContent(c: Cursor)
    requires ReadGeometry(c).Ok?
    ensures InBounds(c, 4) && ReadGeometry(c).value.next.offset <= |c.data|
    ensures ReadGeometry(c).value.value.2 > 0 ==>
      NegatedTriplesAt(c.data, c.offset + 4, ReadGeometry(c).value.value.0)
  {
    var p, vs, q, xs := GeometrySteps(c);
  }

  /** ... and index j is the int32 4j bytes past the index count. */
  lemma {:induction false} ReadGeometryIndices(c: Cursor)
    requires ReadGeometry(c).Ok?
    ensures ReadGeometry(c).value.value.3 > 0 ==>
      var at := c.offset + 8 + 12 * Repeats(ReadGeometry(c).value.value.2);
      0 <= at && at + 4 * |ReadGeometry(c).value.value.1| <= |c.data| &&
      Int32sAt(c.data, at, ReadGeometry(c).value.value.1)
  {
    var p, vs, q, xs := GeometrySteps(c);
    assert q.next.offset == c.offset + 8 + 12 * Repeats(p.value);
  }

  /** The two optional sections that close a record: normals, then UVs. Yields the
      normals and both declared counts. */
  function ReadTrailingSections(c: Cursor): (r: Outcome<(seq<Float32>, Option<int>, Option<int>)>)
    ensures r.Ok? ==> r.value.next == c.(offset := c.offset + NormalsSectionSize(r.value.value.1)
                                                  + UvSectionSize(r.value.value.2))
    ensures r.Ok? ==> r.value.next.offset <= |c.data|
    ensures r.Ok? ==> match r.value.value.1
                      case None => r.value.value.0 == []
                      case Some(n) => IsInt32(n) && |r.value.value.0| == 3 * Repeats(n)
  {
    ReadTrailingSectionsDelayed(c, |c.data| + 1)
  }

  /** `ReadTrailingSections` behind a countdown (see `At`). */
  function ReadTrailingSectionsDelayed(c: Cursor, steps: nat): (r: Outcome<(seq<Float32>, Option<int>, Option<int>)>)
    ensures r.Ok? ==> r.value.next == c.(offset := c.offset + NormalsSectionSize(r.value.value.1)
                                                  + UvSectionSize(r.value.value.2))
    ensures r.Ok? ==> r.value.next.offset <= |c.data|
    ensures r.Ok? ==> match r.value.value.1
                      case None => r.value.value.0 == []
                      case Some(n) => IsInt32(n) && |r.value.value.0| == 3 * Repeats(n)
    decreases steps
  {
    if steps > 0 then ReadTrailingSectionsDelayed(c, steps - 1)
    else
      var normals :- ReadNormalsSection(c);
      var uvs :- SkipUvSection(normals.next);
      Ok(Read((normals.value.0, normals.value.1, uvs.value), uvs.next))
  }

  lemma {:induction false} ReadTrailingSectionsDelayedValue(c: Cursor, steps: nat)
    ensures ReadTrailingSectionsDelayed(c, steps) == ReadTrailingSectionsDelayed(c, 0)
    decreases steps
  {
    if steps > 0 {
      ReadTrailingSectionsDelayedValue(c, steps - 1);
    }
  }

  /** A record reads exactly when its header, then its geometry, then its two trailing
      sections read, each starting where the previous one ended. */
  lemma {:induction false} TrailingSteps(c: Cursor)
    ensures ReadTrailingSections(c).Ok? <==>
      ReadNormalsSection(c).Ok? && SkipUvSection(ReadNormalsSection(c).value.next).Ok?
    ensures ReadTrailingSections(c).Ok? ==>
      var n := ReadNormalsSection(c).value;
      var u := SkipUvSection(n.next).value;
      ReadTrailingSections(c).value == Read((n.value.0, n.value.1, u.value), u.next)
  {
    ReadTrailingSectionsDelayedValue(c, |c.data| + 1);
  }

  /** One mesh record; the cursor ends exactly `RecordSize` bytes further on. */
  function ReadRecord(c: Cursor): (r: Outcome<Entry>)
    ensures r.Ok? ==> InBounds(c, 8) && WellShaped(r.value.value)
    ensures r.Ok? ==> r.value.next == c.(offset := c.offset + RecordSize(r.value.value.layout))
    ensures r.Ok? ==> r.value.next.offset <= |c.data|
  {
    ReadRecordDelayed(c, |c.data| + 1)
  }

  /** `ReadRecord` behind a countdown (see `At`). */
  function ReadRecordDelayed(c: Cursor, steps: nat): (r: Outcome<Entry>)
    ensures r.Ok? ==> InBounds(c, 8) && WellShaped(r.value.value)
    ensures r.Ok? ==> r.value.next == c.(offset := c.offset + RecordSize(r.value.value.layout))
    ensures r.Ok? ==> r.value.next.offset <= |c.data|
    decreases steps
  {
    if steps > 0 then ReadRecordDelayed(c, steps - 1)
    else
      var header :- ReadRecordHeader(c);
      var geometry :- ReadGeometry(header.next);
      var sections :- ReadTrailingSections(geometry.next);
      var g := geometry.value;
      var t := sections.value;
      var layout := Layout(header.value.1, g.2, g.3, t.1, t.2);
      assert sections.next.offset == c.offset + RecordSize(layout);
      Ok(Read(Entry(header.value.0, Mesh(g.0, g.1, t.0), layout), sections.next))
  }

  lemma {:induction false} ReadRecordDelayedValue(c: Cursor, steps: nat)
    ensures ReadRecordDelayed(c, steps) == ReadRecordDelayed(c, 0)
    decreases steps
  {
    if steps > 0 {
      ReadRecordDelayedValue(c, steps - 1);
    }
  }

  /** A record reads exactly when its header, its geometry and its trailing sections read
      in turn; the entry holds the id, the positions, the indices and the normals they
      yield, and the cursor ends where the trailing sections end. */
  lemma {:induction false} RecordSteps(c: Cursor)
    ensures ReadRecord(c).Ok? <==>
      && ReadRecordHeader(c).Ok?
      && ReadGeometry(ReadRecordHeader(c).value.next).Ok?
      && ReadTrailingSections(ReadGeometry(ReadRecordHeader(c).value.next).value.next).Ok?
    ensures ReadRecord(c).Ok? ==>
      var h := ReadRecordHeader(c).value;
      var g := ReadGeometry(h.next).value;
      var t := ReadTrailingSections(g.next).value;
      ReadRecord(c).value
        == Read(Entry(h.value.0, Mesh(g.value.0, g.value.1, t.value.0),
                      Layout(h.value.1, g.value.2, g.value.3, t.value.1, t.value.2)),
                t.next)
  {
    ReadRecordDelayedValue(c, |c.data| + 1);
  }

  lemma {:induction false} WellShapedCons(e: Entry, rest: seq<Entry>)
    requires WellShaped(e)
    requires forall k :: 0 <= k < |rest| ==> WellShaped(rest[k])
    ensures forall k :: 0 <= k < |[e] + rest| ==> WellShaped(([e] + rest)[k])
  {
    forall k | 0 <= k < |[e] + rest| ensures WellShaped(([e] + rest)[k]) {
      if k > 0 {
        assert ([e] + rest)[k] == rest[k - 1];
      }
    }
  }

  /** Up to `count` records, stopping at the first that fails to read. */
  function DecodeRecords(c: Cursor, count: nat): (r: Decoded)
    ensures r.failure.None? ==> |r.entries| == count
    ensures r.failure.Some? ==> |r.entries| < count
    ensures forall k :: 0 <= k < |r.entries| ==> WellShaped(r.entries[k])
    decreases count
  {
    if count == 0 then Decoded([], None)
    else
      match ReadRecord(c)
      case Err(e) => Decoded([], Some(e))
      case Ok(record) =>
        var rest := DecodeRecords(record.next, count - 1);
        WellShapedCons(record.value, rest.entries);
        Decoded([record.value] + rest.entries, rest.failure)
  }

  /** `es` are what `ReadRecord` yields when called again and again from `c`, each
      call starting where the previous one ended. */
  predicate ReadInTurn(c: Cursor, es: seq<Entry>)
    decreases |es|
  {
    |es| == 0 ||
    (ReadRecord(c).Ok? && ReadRecord(c).value.value == es[0] && ReadInTurn(ReadRecord(c).value.next, es[1..]))
  }

  /** The cursor just past the record of `e`, read from `c`. */
  function After(c: Cursor, e: Entry): Cursor {
    c.(offset := c.offset + RecordSize(e.layout))
  }

  /** The cursor just past the records `es`, read from `c`. */
  function Past(c: Cursor, es: seq<Entry>): Cursor
    decreases |es|
  {
    if |es| == 0 then c else Past(After(c, es[0]), es[1..])
  }

  lemma {:induction false} InTurnCons(c: Cursor, record: Read<Entry>, es: seq<Entry>)
    requires ReadRecord(c) == Ok(record) && ReadInTurn(record.next, es)
    ensures ReadInTurn(c, [record.value] + es)
    ensures Past(c, [record.value] + es) == Past(record.next, es)
  {
    assert ([record.value] + es)[1..] == es;
  }

  /** The entries are the records read one after another, and a failure is the error
      of the read that starts right after the last of them. */
  lemma {:induction false} DecodeRecordsReadsInTurn(c: Cursor, count: nat)
    ensures ReadInTurn(c, DecodeRecords(c, count).entries)
    ensures DecodeRecords(c, count).failure.Some? ==>
      ReadRecord(Past(c, DecodeRecords(c, count).entries)) == Err(DecodeRecords(c, count).failure.value)
    decreases count
  {
    if count > 0 && ReadRecord(c).Ok? {
      var record := ReadRecord(c).value;
      var rest := DecodeRecords(record.next, count - 1);
      DecodeRecordsReadsInTurn(record.next, count - 1);
      InTurnCons(c, record, rest.entries);
    }
  }

  /** Conversely, records read in turn from `c` are what `DecodeRecords` returns: all
      of them when they are `count`, and with the error of the next read when they
      are fewer and that read fails. */
  lemma {:induction false} ReadInTurnDecodes(c: Cursor, count: nat, es: seq<Entry>, failure: Option<ReadError>)
    requires ReadInTurn(c, es) && |es| <= count
    requires failure.None? ==> |es| == count
    requires failure.Some? ==> |es| < count && ReadRecord(Past(c, es)) == Err(failure.value)
    ensures DecodeRecords(c, count) == Decoded(es, failure)
    decreases count
  {
    if |es| > 0 {
      var record := ReadRecord(c).value;
      assert Past(c, es) == Past(record.next, es[1..]);
      ReadInTurnDecodes(record.next, count - 1, es[1..], failure);
      assert es == [record.value] + es[1..];
    }
  }

  /** A whole collection blob: the name (discarded), the record count, the records. */
  function DecodeCollection(data: seq<byte>): (r: Decoded)
    ensures |r.entries| < 0x8000_0000
    ensures forall k :: 0 <= k < |r.entries| ==> WellShaped(r.entries[k])
  {
    match ReadUtf8String(Open(data))
    case Err(e) => Decoded([], Some(e))
    case Ok(name) =>
      match ReadInt32(name.next)
      case Err(e) => Decoded([], Some(e))
      case Ok(count) => DecodeRecords(count.next, Repeats(count.value))
  }

  /** The ids of a sequence of entries. */
  function Ids(entries: seq<Entry>): set<seq<byte>> {
    set e | e in entries :: e.id
  }

  /** `meshCollections[id] = mesh` for each entry in order. */
  function Assign(store: Store, entries: seq<Entry>): (r: Store)
    ensures r.Keys == store.Keys + Ids(entries)
    ensures forall k :: k in store && k !in Ids(entries) ==> r[k] == store[k]
    decreases |entries|
  {
    if |entries| == 0 then store
    else
      assert Ids(entries) == {entries[0].id} + Ids(entries[1..]) by {
        assert forall e :: e in entries <==> e == entries[0] || e in entries[1..];
      }
      Assign(store[entries[0].id := entries[0].mesh], entries[1..])
  }

  /** Each key ends up holding the mesh of the last entry with that id. */
  lemma {:induction false} AssignLastWins(store: Store, entries: seq<Entry>, i: nat)
    requires i < |entries|
    requires forall j :: i < j < |entries| ==> entries[j].id != entries[i].id
    ensures entries[i].id in Assign(store, entries)
    ensures Assign(store, entries)[entries[i].id] == entries[i].mesh
    decreases |entries|
  {
    var tail := entries[1..];
    if i == 0 {
      var s' := store[entries[0].id := entries[0].mesh];
      assert entries[0].id !in Ids(tail) by {
        forall e | e in tail ensures e.id != entries[0].id {
          var j :| 0 <= j < |tail| && tail[j] == e;
          assert entries[j + 1] == e;
        }
      }
      assert Assign(store, entries) == Assign(s', tail);
    } else {
      AssignLastWins(store[entries[0].id := entries[0].mesh], tail, i - 1);
    }
  }

  /** `_parseMeshCollection`: decodes `data` and stores every record decoded before the
      first failing read. Keys no record names keep their old meshes. */
  function ParseMeshCollection(data: seq<byte>, store: Store): (r: Parsed)
    ensures r.store.Keys == store.Keys + Ids(DecodeCollection(data).entries)
    ensures forall k :: k in store && k !in Ids(DecodeCollection(data).entries) ==> r.store[k] == store[k]
    ensures r.failure == DecodeCollection(data).failure
  {
    var decoded := DecodeCollection(data);
    Parsed(Assign(store, decoded.entries), decoded.failure)
  }
}

=== FILE: mesh_collection_format.dfy ===
/** The mesh-collection wire format from the writer's side: an encoder for authored
    meshes, and what the decoder is expected to make of each of them. The theorems
    tying the two together are in `MeshCollectionRoundTrip`. */
module MeshCollectionFormat {
  import opened Wrappers
  import opened LittleEndian
  import opened BufferReader
  import opened MeshCollection

  datatype Vec3 = Vec3(x: Float32, y: Float32, z: Float32)

  datatype Uv = Uv(u: Float32, v: Float32)

  /** One mesh as authored: the fields a record carries on the wire. */
  datatype MeshSource = MeshSource(
    byteCount: int,
    id: seq<byte>,
    topology: int,
    positions: seq<Vec3>,
    indices: seq<int>,
    normals: Option<seq<Vec3>>,
    uvs: Option<seq<Uv>>)

  /** Every count and integer fits its int32 field; indices come in whole triangles. */
  predicate Encodable(m: MeshSource) {
    && IsInt32(m.byteCount)
    && |m.id| < 0x8000_0000
    && IsInt32(m.topology)
    && |m.positions| < 0x8000_0000
    && |m.indices| < 0x8000_0000
    && |m.indices| % 3 == 0
    && (forall k :: 0 <= k < |m.indices| ==> IsInt32(m.indices[k]))
    && (m.normals.Some? ==> |m.normals.value| < 0x8000_0000)
    && (m.uvs.Some? ==> |m.uvs.value| < 0x8000_0000)
  }

  // ---------------------------------------------------------------------------
  // Encoder

  function EncodeVec3s(vs: seq<Vec3>): (bs: seq<byte>)
    ensures |bs| == 12 * |vs|
  {
    if |vs| == 0 then []
    else EncodeFloat32(vs[0].x) + (EncodeFloat32(vs[0].y) + (EncodeFloat32(vs[0].z) + EncodeVec3s(vs[1..])))
  }

  function EncodeInt32s(xs: seq<int>): (bs: seq<byte>)
    requires forall k :: 0 <= k < |xs| ==> IsInt32(xs[k])
    ensures |bs| == 4 * |xs|
  {
    if |xs| == 0 then [] else EncodeInt32(xs[0]) + EncodeInt32s(xs[1..])
  }

  function EncodeUvs(us: seq<Uv>): (bs: seq<byte>)
    ensures |bs| == 8 * |us|
  {
    if |us| == 0 then [] else EncodeFloat32(us[0].u) + (EncodeFloat32(us[0].v) + EncodeUvs(us[1..]))
  }

  function EncodeHeader(m: MeshSource): (bs: seq<byte>)
    requires Encodable(m)
    ensures |bs| == 12 + |m.id|
  {
    EncodeInt32(m.byteCount) + (EncodeString(m.id) + EncodeInt32(m.topology))
  }

  function EncodeGeometry(m: MeshSource): (bs: seq<byte>)
    requires Encodable(m)
    ensures |bs| == 8 + 12 * |m.positions| + 4 * |m.indices|
  {
    EncodeInt32(|m.positions|) + (EncodeVec3s(m.positions) + (EncodeInt32(|m.indices|) + EncodeInt32s(m.indices)))
  }

  function EncodeNormals(normals: Option<seq<Vec3>>): (bs: seq<byte>)
    requires normals.Some? ==> |normals.value| < 0x8000_0000
    ensures |bs| == NormalsSectionSize(CountOf(normals))
  {
    match normals
    case None => EncodeInt8(0)
    case Some(ns) => EncodeInt8(1) + (EncodeInt32(|ns|) + EncodeVec3s(ns))
  }

  function EncodeUvSection(uvs: Option<seq<Uv>>): (bs: seq<byte>)
    requires uvs.Some? ==> |uvs.value| < 0x8000_0000
    ensures |bs| == UvSectionSize(CountOf(uvs))
  {
    match uvs
    case None => EncodeInt8(0)
    case Some(us) => EncodeInt8(1) + (EncodeInt32(|us|) + EncodeUvs(us))
  }

  function EncodeRecord(m: MeshSource): (bs: seq<byte>)
    requires Encodable(m)
    ensures |bs| == RecordSize(LayoutOf(m))
  {
    EncodeRecordDelayed(m, |m.id| + 1)
  }

  /** `EncodeRecord` behind a countdown (see `At`). */
  function EncodeRecordDelayed(m: MeshSource, steps: nat): (bs: seq<byte>)
    requires Encodable(m)
    ensures |bs| == RecordSize(LayoutOf(m))
    decreases steps
  {
    if steps > 0 then EncodeRecordDelayed(m, steps - 1)
    else
      assert 12 * IndexTriples(|m.indices|) == 4 * |m.indices|;
      EncodeHeader(m) + (EncodeGeometry(m) + (EncodeNormals(m.normals) + EncodeUvSection(m.uvs)))
  }

  lemma {:induction false} EncodeRecordDelayedValue(m: MeshSource, steps: nat)
    requires Encodable(m)
    ensures EncodeRecordDelayed(m, steps) == EncodeRecordDelayed(m, 0)
    decreases steps
  {
    if steps > 0 {
      EncodeRecordDelayedValue(m, steps - 1);
    }
  }

  function EncodeRecords(ms: seq<MeshSource>): seq<byte>
    requires forall k :: 0 <= k < |ms| ==> Encodable(ms[k])
  {
    if |ms| == 0 then [] else EncodeRecord(ms[0]) + EncodeRecords(ms[1..])
  }

  /** A whole collection blob: name, record count, records. */
  function EncodeCollection(name: seq<byte>, ms: seq<MeshSource>): seq<byte>
    requires |name| < 0x8000_0000 && |ms| < 0x8000_0000
    requires forall k :: 0 <= k < |ms| ==> Encodable(ms[k])
  {
    EncodeString(name) + (EncodeInt32(|ms|) + EncodeRecords(ms))
  }

  // ---------------------------------------------------------------------------
  // What the decoder is expected to produce

  /** Flat x, y, z floats with every x negated. */
  function NegatedFlat(vs: seq<Vec3>): (fs: seq<Float32>)
    ensures |fs| == 3 * |vs|
  {
    if |vs| == 0 then [] else [Negate32(vs[0].x), vs[0].y, vs[0].z] + NegatedFlat(vs[1..])
  }

  /** The normals a record stores: none when the section is absent. */
  function FlatNormals(normals: Option<seq<Vec3>>): seq<Float32> {
    match normals
    case None => []
    case Some(ns) => NegatedFlat(ns)
  }

  /** The count an optional section declares. */
  function CountOf<T>(section: Option<seq<T>>): Option<int> {
    match section
    case None => None
    case Some(xs) => Some(|xs|)
  }

  function MeshOf(m: MeshSource): Mesh {
    Mesh(NegatedFlat(m.positions), m.indices, FlatNormals(m.normals))
  }

  function LayoutOf(m: MeshSource): Layout {
    Layout(|m.id|, |m.positions|, |m.indices|, CountOf(m.normals), CountOf(m.uvs))
  }

  function EntryOf(m: MeshSource): Entry {
    Entry(m.id, MeshOf(m), LayoutOf(m))
  }

  function EntriesOf(ms: seq<MeshSource>): (es: seq<Entry>)
    ensures |es| == |ms|
    ensures forall k :: 0 <= k < |ms| ==> es[k] == EntryOf(ms[k])
  {
    if |ms| == 0 then [] else [EntryOf(ms[0])] + EntriesOf(ms[1..])
  }
}

=== FILE: mesh_collection_round_trip.dfy ===
/** The theorems tying the encoder to the decoder: decoding an encoded collection
    yields exactly the authored meshes with x negated, whatever bytes follow. */
module MeshCollectionRoundTrip {
  import opened Wrappers
  import opened LittleEndian
  import opened BufferReader
  import opened MeshCollection
  import opened MeshCollectionFormat

  // ---------------------------------------------------------------------------
  // Round trips, part by part

  lemma {:induction false} Float32Encoded(data: seq<byte>, offset: int, f: Float32)
    requires At(data, offset, EncodeFloat32(f))
    ensures Float32At(data, offset) == f
  {
    ReadFloat32RoundTrip(Cursor(data, offset, true), f);
  }

  lemma {:induction false} Int32Encoded(data: seq<byte>, offset: int, n: int)
    requires IsInt32(n) && At(data, offset, EncodeInt32(n))
    ensures Int32At(data, offset) == n
  {
    ReadInt32RoundTrip(Cursor(data, offset, true), n);
  }

  /** Encoded positions, read back slot by slot, are the flat floats with x negated. */
  lemma {:induction false} Vec3sEncoded(data: seq<byte>, offset: int, vs: seq<Vec3>)
    requires At(data, offset, EncodeVec3s(vs))
    ensures NegatedTriplesAt(data, offset, NegatedFlat(vs))
    decreases |vs|
  {
    if |vs| > 0 {
      var o := offset;
      var v := vs[0];
      AtSplit(data, o, EncodeFloat32(v.x), EncodeFloat32(v.y) + (EncodeFloat32(v.z) + EncodeVec3s(vs[1..])));
      AtSplit(data, o + 4, EncodeFloat32(v.y), EncodeFloat32(v.z) + EncodeVec3s(vs[1..]));
      AtSplit(data, o + 8, EncodeFloat32(v.z), EncodeVec3s(vs[1..]));
      Float32Encoded(data, o, v.x);
      Float32Encoded(data, o + 4, v.y);
      Float32Encoded(data, o + 8, v.z);
      Vec3sEncoded(data, o + 12, vs[1..]);
      NegatedTriplesAtCons(data, o, [Negate32(v.x), v.y, v.z], NegatedFlat(vs[1..]));
    }
  }

  /** Encoded indices, read back slot by slot, are the indices themselves. */
  lemma {:induction false} Int32sEncoded(data: seq<byte>, offset: int, xs: seq<int>)
    requires forall k :: 0 <= k < |xs| ==> IsInt32(xs[k])
    requires At(data, offset, EncodeInt32s(xs))
    ensures Int32sAt(data, offset, xs)
    decreases |xs|
  {
    if |xs| > 0 {
      AtSplit(data, offset, EncodeInt32(xs[0]), EncodeInt32s(xs[1..]));
      Int32Encoded(data, offset, xs[0]);
      Int32sEncoded(data, offset + 4, xs[1..]);
      forall j | 1 <= j < |xs|
        ensures xs[j] == Int32At(data, offset + 4 * j)
      {
        assert xs[j] == xs[1..][j - 1];
        assert offset + 4 + 4 * (j - 1) == offset + 4 * j;
      }
    }
  }

  /** Two readings of the same slots agree. */
  lemma {:induction false} NegatedTriplesAtUnique(data: seq<byte>, offset: int, a: seq<Float32>, b: seq<Float32>)
    requires |a| == |b| && 0 <= offset && offset + 4 * |a| <= |data|
    requires NegatedTriplesAt(data, offset, a) && NegatedTriplesAt(data, offset, b)
    ensures a == b
  {
  }

  lemma {:induction false} Int32sAtUnique(data: seq<byte>, offset: int, a: seq<int>, b: seq<int>)
    requires |a| == |b| && 0 <= offset && offset + 4 * |a| <= |data|
    requires Int32sAt(data, offset, a) && Int32sAt(data, offset, b)
    ensures a == b
  {
  }

  /** A successful read is determined by its value and where it stops. */
  lemma {:induction false} OkRead<T>(r: Outcome<T>, value: T, next: Cursor)
    requires r.Ok? && r.value.value == value && r.value.next == next
    ensures r == Ok(Read(value, next))
  {
  }

  lemma {:induction false} NegatedTriplesRoundTrip(c: Cursor, vs: seq<Vec3>, n: nat)
    requires n == |vs| && At(c.data, c.offset, EncodeVec3s(vs))
    ensures ReadNegatedTriples(c, n) == Ok(Read(NegatedFlat(vs), c.(offset := c.offset + 12 * n)))
  {
    var r := ReadNegatedTriples(c, n);
    assert r.Ok?;
    if n > 0 {
      Vec3sEncoded(c.data, c.offset, vs);
      NegatedTriplesAtUnique(c.data, c.offset, r.value.value, NegatedFlat(vs));
    }
    OkRead(r, NegatedFlat(vs), c.(offset := c.offset + 12 * n));
  }

  lemma {:induction false} IndexTriplesRoundTrip(c: Cursor, xs: seq<int>, n: nat)
    requires |xs| == 3 * n
    requires forall k :: 0 <= k < |xs| ==> IsInt32(xs[k])
    requires At(c.data, c.offset, EncodeInt32s(xs))
    ensures ReadIndexTriples(c, n) == Ok(Read(xs, c.(offset := c.offset + 12 * n)))
  {
    var r := ReadIndexTriples(c, n);
    assert r.Ok?;
    if n > 0 {
      Int32sEncoded(c.data, c.offset, xs);
      Int32sAtUnique(c.data, c.offset, r.value.value, xs);
    }
    OkRead(r, xs, c.(offset := c.offset + 12 * n));
  }

  lemma {:induction false} UvPairsRoundTrip(c: Cursor, us: seq<Uv>, n: nat)
    requires n == |us| && At(c.data, c.offset, EncodeUvs(us))
    ensures SkipUvPairs(c, n) == Ok(Read((), c.(offset := c.offset + 8 * n)))
  {
    assert InBounds(c, 8 * n);
    SkipUvPairsInBounds(c, n);
  }

  lemma {:induction false} SkipUvPairsInBounds(c: Cursor, n: nat)
    requires InBounds(c, 8 * n)
    ensures SkipUvPairs(c, n) == Ok(Read((), c.(offset := c.offset + 8 * n)))
  {
    var r := SkipUvPairs(c, n);
    assert r.Ok?;
    assert r.value.value == ();
    OkRead(r, (), c.(offset := c.offset + 8 * n));
  }

  // ---------------------------------------------------------------------------
  // How each record-level read is put together from the reads it makes. Every
  // cursor a read starts or stops at is a parameter, pinned down by a requires.

  lemma {:induction false} HeaderParts(c: Cursor, c4: Cursor, c8: Cursor, end: Cursor,
                    byteCount: int, id: seq<byte>, k: int, topology: int)
    requires 0 <= c.offset && c.offset + 8 <= |c.data| && Int32At(c.data, c.offset + 4) == k
    requires ReadInt32(c) == Ok(Read(byteCount, c4))
    requires ReadUtf8String(c4) == Ok(Read(id, c8))
    requires ReadInt32(c8) == Ok(Read(topology, end))
    ensures ReadRecordHeader(c) == Ok(Read((id, k), end))
  {
    ReadRecordHeaderDelayedValue(c, |c.data| + 1);
  }

  lemma {:induction false} GeometryParts(c: Cursor, c4: Cursor, c1: Cursor, c2: Cursor, end: Cursor,
                      p: nat, t: nat, vs: seq<Float32>, xs: seq<int>)
    requires ReadInt32(c) == Ok(Read(p, c4))
    requires ReadNegatedTriples(c4, p) == Ok(Read(vs, c1))
    requires ReadInt32(c1) == Ok(Read(3 * t, c2))
    requires ReadIndexTriples(c2, t) == Ok(Read(xs, end))
    ensures ReadGeometry(c) == Ok(Read((vs, xs, p, 3 * t), end))
  {
    ReadGeometryDelayedValue(c, |c.data| + 1);
    assert IndexTriples(3 * t) == t;
  }

  lemma {:induction false} NormalsAbsentParts(c: Cursor, end: Cursor)
    requires ReadInt8(c) == Ok(Read(0, end))
    ensures ReadNormalsSection(c) == Ok(Read(([], None), end))
  {
    ReadNormalsSectionDelayedValue(c, |c.data| + 1);
  }

  lemma {:induction false} NormalsPresentParts(c: Cursor, c1: Cursor, c5: Cursor, end: Cursor, k: nat, ns: seq<Float32>)
    requires ReadInt8(c) == Ok(Read(1, c1))
    requires ReadInt32(c1) == Ok(Read(k, c5))
    requires ReadNegatedTriples(c5, k) == Ok(Read(ns, end))
    ensures ReadNormalsSection(c) == Ok(Read((ns, Some(k)), end))
  {
    ReadNormalsSectionDelayedValue(c, |c.data| + 1);
  }

  lemma {:induction false} UvAbsentParts(c: Cursor, end: Cursor)
    requires ReadInt8(c) == Ok(Read(0, end))
    ensures SkipUvSection(c) == Ok(Read(None, end))
  {
  }

  lemma {:induction false} UvPresentParts(c: Cursor, c1: Cursor, c5: Cursor, end: Cursor, k: nat)
    requires ReadInt8(c) == Ok(Read(1, c1))
    requires ReadInt32(c1) == Ok(Read(k, c5))
    requires SkipUvPairs(c5, k) == Ok(Read((), end))
    ensures SkipUvSection(c) == Ok(Read(Some(k), end))
  {
  }

  lemma {:induction false} TrailingParts(c: Cursor, c1: Cursor, end: Cursor,
                      ns: seq<Float32>, nc: Option<int>, uc: Option<int>)
    requires ReadNormalsSection(c) == Ok(Read((ns, nc), c1))
    requires SkipUvSection(c1) == Ok(Read(uc, end))
    ensures ReadTrailingSections(c) == Ok(Read((ns, nc, uc), end))
  {
    ReadTrailingSectionsDelayedValue(c, |c.data| + 1);
  }

  lemma {:induction false} RecordParts(c: Cursor, c1: Cursor, c2: Cursor, end: Cursor, m: MeshSource)
    requires ReadRecordHeader(c) == Ok(Read((m.id, |m.id|), c1))
    requires ReadGeometry(c1) == Ok(Read((NegatedFlat(m.positions), m.indices, |m.positions|, |m.indices|), c2))
    requires ReadTrailingSections(c2) == Ok(Read((FlatNormals(m.normals), CountOf(m.normals), CountOf(m.uvs)), end))
    ensures ReadRecord(c) == Ok(Read(EntryOf(m), end))
  {
    ReadRecordDelayedValue(c, |c.data| + 1);
  }

  lemma {:induction false} DecodeRecordsStep(c: Cursor, n: nat, r: Read<Entry>)
    requires n > 0 && ReadRecord(c) == Ok(r)
    ensures DecodeRecords(c, n)
         == Decoded([r.value] + DecodeRecords(r.next, n - 1).entries, DecodeRecords(r.next, n - 1).failure)
  {
  }

  lemma {:induction false} CollectionParts(data: seq<byte>, c1: Cursor, c2: Cursor, name: seq<byte>, n: nat)
    requires ReadUtf8String(Open(data)) == Ok(Read(name, c1))
    requires ReadInt32(c1) == Ok(Read(n, c2))
    ensures DecodeCollection(data) == DecodeRecords(c2, n)
  {
  }

  // ---------------------------------------------------------------------------
  // Round trips, record by record. Each is split into a layout step (where each
  // field's bytes sit) and a reads step (what each read then returns); the
  // lemmas that combine them name every length and every unfolded encoding.

  lemma {:induction false} HeaderLayout(data: seq<byte>, o: int, byteCount: int, id: seq<byte>, k: nat, topology: int)
    requires IsInt32(byteCount) && IsInt32(topology) && k == |id| && k < 0x8000_0000
    requires At(data, o, EncodeInt32(byteCount) + (EncodeString(id) + EncodeInt32(topology)))
    ensures At(data, o, EncodeInt32(byteCount))
    ensures At(data, o + 4, EncodeString(id))
    ensures Int32At(data, o + 4) == k
    ensures At(data, o + 8 + k, EncodeInt32(topology))
  {
    AtSplit3(data, o, EncodeInt32(byteCount), EncodeString(id), EncodeInt32(topology));
    AtSplit(data, o + 4, EncodeInt32(k), id);
    Int32Encoded(data, o + 4, k);
  }

  lemma {:induction false} HeaderReads(c: Cursor, byteCount: int, id: seq<byte>, k: nat, topology: int)
    requires IsInt32(byteCount) && IsInt32(topology) && k == |id| && k < 0x8000_0000
    requires At(c.data, c.offset, EncodeInt32(byteCount))
    requires At(c.data, c.offset + 4, EncodeString(id))
    requires 0 <= c.offset && c.offset + 8 <= |c.data| && Int32At(c.data, c.offset + 4) == k
    requires At(c.data, c.offset + 8 + k, EncodeInt32(topology))
    ensures ReadRecordHeader(c) == Ok(Read((id, k), c.(offset := c.offset + 12 + k)))
  {
    var c4 := c.(offset := c.offset + 4);
    var c8 := c4.(offset := c4.offset + 4 + |id|);
    var end := c8.(offset := c8.offset + 4);
    ReadInt32RoundTrip(c, byteCount);
    ReadUtf8StringRoundTrip(c4, id);
    ReadInt32RoundTrip(c8, topology);
    HeaderParts(c, c4, c8, end, byteCount, id, k, topology);
    assert end == c.(offset := c.offset + 12 + k);
  }

  lemma {:induction false} HeaderRoundTrip(c: Cursor, m: MeshSource)
    requires Encodable(m) && At(c.data, c.offset, EncodeHeader(m))
    ensures ReadRecordHeader(c) == Ok(Read((m.id, |m.id|), c.(offset := c.offset + 12 + |m.id|)))
  {
    var byteCount, id, k, topology := m.byteCount, m.id, |m.id|, m.topology;
    assert EncodeHeader(m) == EncodeInt32(byteCount) + (EncodeString(id) + EncodeInt32(topology));
    HeaderLayout(c.data, c.offset, byteCount, id, k, topology);
    HeaderReads(c, byteCount, id, k, topology);
  }

  lemma {:induction false} GeometryLayout(data: seq<byte>, o: int, ps: seq<Vec3>, xs: seq<int>, p: nat, q: nat)
    requires p == |ps| && q == |xs| && p < 0x8000_0000 && q < 0x8000_0000
    requires forall k :: 0 <= k < |xs| ==> IsInt32(xs[k])
    requires At(data, o, EncodeInt32(p) + (EncodeVec3s(ps) + (EncodeInt32(q) + EncodeInt32s(xs))))
    ensures At(data, o, EncodeInt32(p))
    ensures At(data, o + 4, EncodeVec3s(ps))
    ensures At(data, o + 4 + 12 * p, EncodeInt32(q))
    ensures At(data, o + 8 + 12 * p, EncodeInt32s(xs))
  {
    AtSplit3(data, o, EncodeInt32(p), EncodeVec3s(ps), EncodeInt32(q) + EncodeInt32s(xs));
    AtSplit(data, o + 4 + 12 * p, EncodeInt32(q), EncodeInt32s(xs));
  }

  lemma {:induction false} GeometryReads(c: Cursor, ps: seq<Vec3>, xs: seq<int>, p: nat, t: nat)
    requires p == |ps| && |xs| == 3 * t && p < 0x8000_0000 && 3 * t < 0x8000_0000
    requires forall k :: 0 <= k < |xs| ==> IsInt32(xs[k])
    requires At(c.data, c.offset, EncodeInt32(p))
    requires At(c.data, c.offset + 4, EncodeVec3s(ps))
    requires At(c.data, c.offset + 4 + 12 * p, EncodeInt32(3 * t))
    requires At(c.data, c.offset + 8 + 12 * p, EncodeInt32s(xs))
    ensures ReadGeometry(c) == Ok(Read((NegatedFlat(ps), xs, p, 3 * t), c.(offset := c.offset + 8 + 12 * p + 12 * t)))
  {
    var c4 := c.(offset := c.offset + 4);
    var c1 := c4.(offset := c4.offset + 12 * p);
    var c2 := c1.(offset := c1.offset + 4);
    var end := c2.(offset := c2.offset + 12 * t);
    ReadInt32RoundTrip(c, p);
    NegatedTriplesRoundTrip(c4, ps, p);
    ReadInt32RoundTrip(c1, 3 * t);
    IndexTriplesRoundTrip(c2, xs, t);
    GeometryParts(c, c4, c1, c2, end, p, t, NegatedFlat(ps), xs);
    assert end == c.(offset := c.offset + 8 + 12 * p + 12 * t);
  }

  lemma {:induction false} GeometryRoundTrip(c: Cursor, m: MeshSource)
    requires Encodable(m) && At(c.data, c.offset, EncodeGeometry(m))
    ensures ReadGeometry(c) == Ok(Read((NegatedFlat(m.positions), m.indices, |m.positions|, |m.indices|),
                                       c.(offset := c.offset + 8 + 12 * |m.positions| + 4 * |m.indices|)))
  {
    var ps, xs := m.positions, m.indices;
    var p, q := |ps|, |xs|;
    var t := q / 3;
    assert q == 3 * t;
    assert EncodeGeometry(m) == EncodeInt32(p) + (EncodeVec3s(ps) + (EncodeInt32(q) + EncodeInt32s(xs)));
    GeometryLayout(c.data, c.offset, ps, xs, p, q);
    GeometryReads(c, ps, xs, p, t);
    assert c.(offset := c.offset + 8 + 12 * p + 12 * t) == c.(offset := c.offset + 8 + 12 * p + 4 * q);
  }

  lemma {:induction false} NormalsPresentLayout(data: seq<byte>, o: int, ns: seq<Vec3>, k: nat)
    requires k == |ns| && k < 0x8000_0000
    requires At(data, o, EncodeInt8(1) + (EncodeInt32(k) + EncodeVec3s(ns)))
    ensures At(data, o, EncodeInt8(1))
    ensures At(data, o + 1, EncodeInt32(k))
    ensures At(data, o + 5, EncodeVec3s(ns))
  {
    AtSplit3(data, o, EncodeInt8(1), EncodeInt32(k), EncodeVec3s(ns));
  }

  lemma {:induction false} NormalsPresentReads(c: Cursor, ns: seq<Vec3>, k: nat)
    requires k == |ns| && k < 0x8000_0000
    requires At(c.data, c.offset, EncodeInt8(1))
    requires At(c.data, c.offset + 1, EncodeInt32(k))
    requires At(c.data, c.offset + 5, EncodeVec3s(ns))
    ensures ReadNormalsSection(c) == Ok(Read((NegatedFlat(ns), Some(k)), c.(offset := c.offset + 5 + 12 * k)))
  {
    var c1 := c.(offset := c.offset + 1);
    var c5 := c1.(offset := c1.offset + 4);
    var end := c5.(offset := c5.offset + 12 * k);
    ReadInt8RoundTrip(c, 1);
    ReadInt32RoundTrip(c1, k);
    NegatedTriplesRoundTrip(c5, ns, k);
    NormalsPresentParts(c, c1, c5, end, k, NegatedFlat(ns));
    assert end == c.(offset := c.offset + 5 + 12 * k);
  }

  lemma {:induction false} NormalsPresentRoundTrip(c: Cursor, ns: seq<Vec3>, k: nat)
    requires k == |ns| && k < 0x8000_0000
    requires At(c.data, c.offset, EncodeNormals(Some(ns)))
    ensures ReadNormalsSection(c) == Ok(Read((NegatedFlat(ns), Some(k)), c.(offset := c.offset + 5 + 12 * k)))
  {
    assert EncodeNormals(Some(ns)) == EncodeInt8(1) + (EncodeInt32(k) + EncodeVec3s(ns));
    NormalsPresentLayout(c.data, c.offset, ns, k);
    NormalsPresentReads(c, ns, k);
  }

  lemma {:induction false} NormalsAbsentRoundTrip(c: Cursor)
    requires At(c.data, c.offset, EncodeNormals(None))
    ensures ReadNormalsSection(c) == Ok(Read(([], None), c.(offset := c.offset + 1)))
  {
    ReadInt8RoundTrip(c, 0);
    NormalsAbsentParts(c, c.(offset := c.offset + 1));
  }

  /** Decoding an encoded normals section (absent or present) yields its floats with
      x negated and its declared count, and ends right after the section. */
  lemma {:induction false} NormalsRoundTrip(c: Cursor, normals: Option<seq<Vec3>>)
    requires normals.Some? ==> |normals.value| < 0x8000_0000
    requires At(c.data, c.offset, EncodeNormals(normals))
    ensures ReadNormalsSection(c)
         == Ok(Read((FlatNormals(normals), CountOf(normals)), c.(offset := c.offset + |EncodeNormals(normals)|)))
  {
    match normals
    case None =>
      NormalsAbsentRoundTrip(c);
    case Some(ns) =>
      var k := |ns|;
      NormalsPresentRoundTrip(c, ns, k);
      assert c.(offset := c.offset + 5 + 12 * k) == c.(offset := c.offset + |EncodeNormals(normals)|);
  }

  lemma {:induction false} UvPresentLayout(data: seq<byte>, o: int, us: seq<Uv>, k: nat)
    requires k == |us| && k < 0x8000_0000
    requires At(data, o, EncodeInt8(1) + (EncodeInt32(k) + EncodeUvs(us)))
    ensures At(data, o, EncodeInt8(1))
    ensures At(data, o + 1, EncodeInt32(k))
    ensures At(data, o + 5, EncodeUvs(us))
  {
    AtSplit3(data, o, EncodeInt8(1), EncodeInt32(k), EncodeUvs(us));
  }

  lemma {:induction false} UvPresentReads(c: Cursor, us: seq<Uv>, k: nat)
    requires k == |us| && k < 0x8000_0000
    requires At(c.data, c.offset, EncodeInt8(1))
    requires At(c.data, c.offset + 1, EncodeInt32(k))
    requires At(c.data, c.offset + 5, EncodeUvs(us))
    ensures SkipUvSection(c) == Ok(Read(Some(k), c.(offset := c.offset + 5 + 8 * k)))
  {
    var c1 := c.(offset := c.offset + 1);
    var c5 := c1.(offset := c1.offset + 4);
    var end := c5.(offset := c5.offset + 8 * k);
    ReadInt8RoundTrip(c, 1);
    ReadInt32RoundTrip(c1, k);
    UvPairsRoundTrip(c5, us, k);
    UvPresentParts(c, c1, c5, end, k);
    assert end == c.(offset := c.offset + 5 + 8 * k);
  }

  lemma {:induction false} UvPresentRoundTrip(c: Cursor, us: seq<Uv>, k: nat)
    requires k == |us| && k < 0x8000_0000
    requires At(c.data, c.offset, EncodeUvSection(Some(us)))
    ensures SkipUvSection(c) == Ok(Read(Some(k), c.(offset := c.offset + 5 + 8 * k)))
  {
    assert EncodeUvSection(Some(us)) == EncodeInt8(1) + (EncodeInt32(k) + EncodeUvs(us));
    UvPresentLayout(c.data, c.offset, us, k);
    UvPresentReads(c, us, k);
  }

  lemma {:induction false} UvAbsentRoundTrip(c: Cursor)
    requires At(c.data, c.offset, EncodeUvSection(None))
    ensures SkipUvSection(c) == Ok(Read(None, c.(offset := c.offset + 1)))
  {
    ReadInt8RoundTrip(c, 0);
    UvAbsentParts(c, c.(offset := c.offset + 1));
  }

  /** Skipping an encoded UV section yields its declared count (none when absent)
      and ends right after the section. */
  lemma {:induction false} UvSectionRoundTrip(c: Cursor, uvs: Option<seq<Uv>>)
    requires uvs.Some? ==> |uvs.value| < 0x8000_0000
    requires At(c.data, c.offset, EncodeUvSection(uvs))
    ensures SkipUvSection(c) == Ok(Read(CountOf(uvs), c.(offset := c.offset + |EncodeUvSection(uvs)|)))
  {
    match uvs
    case None =>
      UvAbsentRoundTrip(c);
    case Some(us) =>
      var k := |us|;
      UvPresentRoundTrip(c, us, k);
      assert c.(offset := c.offset + 5 + 8 * k) == c.(offset := c.offset + |EncodeUvSection(uvs)|);
  }

  lemma {:induction false} TrailingReads(c: Cursor, normals: Option<seq<Vec3>>, uvs: Option<seq<Uv>>, n: nat, u: nat)
    requires normals.Some? ==> |normals.value| < 0x8000_0000
    requires uvs.Some? ==> |uvs.value| < 0x8000_0000
    requires n == |EncodeNormals(normals)| && u == |EncodeUvSection(uvs)|
    requires At(c.data, c.offset, EncodeNormals(normals))
    requires At(c.data, c.offset + n, EncodeUvSection(uvs))
    ensures ReadTrailingSections(c)
         == Ok(Read((FlatNormals(normals), CountOf(normals), CountOf(uvs)), c.(offset := c.offset + n + u)))
  {
    var c1 := c.(offset := c.offset + |EncodeNormals(normals)|);
    var end := c1.(offset := c1.offset + |EncodeUvSection(uvs)|);
    NormalsRoundTrip(c, normals);
    UvSectionRoundTrip(c1, uvs);
    TrailingParts(c, c1, end, FlatNormals(normals), CountOf(normals), CountOf(uvs));
    assert end == c.(offset := c.offset + n + u);
  }

  lemma {:induction false} TrailingRoundTrip(c: Cursor, normals: Option<seq<Vec3>>, uvs: Option<seq<Uv>>)
    requires normals.Some? ==> |normals.value| < 0x8000_0000
    requires uvs.Some? ==> |uvs.value| < 0x8000_0000
    requires At(c.data, c.offset, EncodeNormals(normals) + EncodeUvSection(uvs))
    ensures ReadTrailingSections(c)
         == Ok(Read((FlatNormals(normals), CountOf(normals), CountOf(uvs)),
                    c.(offset := c.offset + |EncodeNormals(normals)| + |EncodeUvSection(uvs)|)))
  {
    var n := |EncodeNormals(normals)|;
    var u := |EncodeUvSection(uvs)|;
    AtSplit(c.data, c.offset, EncodeNormals(normals), EncodeUvSection(uvs));
    TrailingReads(c, normals, uvs, n, u);
  }

  lemma {:induction false} RecordLayout(data: seq<byte>, o: int, m: MeshSource, h: nat, g: nat)
    requires Encodable(m) && h == |EncodeHeader(m)| && g == |EncodeGeometry(m)|
    requires At(data, o, EncodeRecord(m))
    ensures At(data, o, EncodeHeader(m))
    ensures At(data, o + h, EncodeGeometry(m))
    ensures At(data, o + h + g, EncodeNormals(m.normals) + EncodeUvSection(m.uvs))
  {
    EncodeRecordDelayedValue(m, |m.id| + 1);
    AtSplit3(data, o, EncodeHeader(m), EncodeGeometry(m), EncodeNormals(m.normals) + EncodeUvSection(m.uvs));
  }

  lemma {:induction false} RecordReads(c: Cursor, m: MeshSource, h: nat, g: nat, t: nat)
    requires Encodable(m) && h == 12 + |m.id| && g == 8 + 12 * |m.positions| + 4 * |m.indices|
    requires t == |EncodeNormals(m.normals)| + |EncodeUvSection(m.uvs)|
    requires At(c.data, c.offset, EncodeHeader(m))
    requires At(c.data, c.offset + h, EncodeGeometry(m))
    requires At(c.data, c.offset + h + g, EncodeNormals(m.normals) + EncodeUvSection(m.uvs))
    ensures ReadRecord(c) == Ok(Read(EntryOf(m), c.(offset := c.offset + h + g + t)))
  {
    var c1 := c.(offset := c.offset + h);
    var c2 := c1.(offset := c1.offset + g);
    var end := c2.(offset := c2.offset + t);
    HeaderRoundTrip(c, m);
    GeometryRoundTrip(c1, m);
    TrailingRoundTrip(c2, m.normals, m.uvs);
    RecordParts(c, c1, c2, end, m);
    assert end == c.(offset := c.offset + h + g + t);
  }

  /** Decoding an encoded record yields the authored mesh with position and normal x
      negated, indices unchanged, and ends right after the record. */
  lemma {:induction false} RecordRoundTrip(c: Cursor, m: MeshSource)
    requires Encodable(m) && At(c.data, c.offset, EncodeRecord(m))
    ensures ReadRecord(c) == Ok(Read(EntryOf(m), c.(offset := c.offset + |EncodeRecord(m)|)))
  {
    var h := |EncodeHeader(m)|;
    var g := |EncodeGeometry(m)|;
    var t := |EncodeNormals(m.normals)| + |EncodeUvSection(m.uvs)|;
    RecordLayout(c.data, c.offset, m, h, g);
    RecordReads(c, m, h, g, t);
    assert c.(offset := c.offset + h + g + t) == c.(offset := c.offset + |EncodeRecord(m)|);
  }

  lemma {:induction false} RecordsStep(c: Cursor, ms: seq<MeshSource>, n: nat, c1: Cursor)
    requires n == |ms| && n > 0
    requires forall k :: 0 <= k < |ms| ==> Encodable(ms[k])
    requires ReadRecord(c) == Ok(Read(EntryOf(ms[0]), c1))
    requires DecodeRecords(c1, n - 1) == Decoded(EntriesOf(ms[1..]), None)
    ensures DecodeRecords(c, n) == Decoded(EntriesOf(ms), None)
  {
    DecodeRecordsStep(c, n, Read(EntryOf(ms[0]), c1));
    assert EntriesOf(ms) == [EntryOf(ms[0])] + EntriesOf(ms[1..]);
  }

  lemma {:induction false} RecordsLayout(data: seq<byte>, o: int, ms: seq<MeshSource>, r: nat)
    requires |ms| > 0
    requires forall k :: 0 <= k < |ms| ==> Encodable(ms[k])
    requires r == |EncodeRecord(ms[0])|
    requires At(data, o, EncodeRecords(ms))
    ensures At(data, o, EncodeRecord(ms[0]))
    ensures At(data, o + r, EncodeRecords(ms[1..]))
  {
    AtSplit(data, o, EncodeRecord(ms[0]), EncodeRecords(ms[1..]));
  }

  lemma {:induction false} RecordsRoundTrip(c: Cursor, ms: seq<MeshSource>, n: nat)
    requires n == |ms|
    requires forall k :: 0 <= k < |ms| ==> Encodable(ms[k])
    requires At(c.data, c.offset, EncodeRecords(ms))
    ensures DecodeRecords(c, n) == Decoded(EntriesOf(ms), None)
    decreases n
  {
    if n > 0 {
      var m, rest := ms[0], ms[1..];
      var r := |EncodeRecord(m)|;
      var c1 := c.(offset := c.offset + |EncodeRecord(m)|);
      RecordsLayout(c.data, c.offset, ms, r);
      RecordRoundTrip(c, m);
      RecordsRoundTrip(c1, rest, n - 1);
      RecordsStep(c, ms, n, c1);
    }
  }

  lemma {:induction false} CollectionLayout(data: seq<byte>, name: seq<byte>, ms: seq<MeshSource>, trailing: seq<byte>, k: nat, n: nat)
    requires k < 0x8000_0000 && n < 0x8000_0000 && k == |name| && n == |ms|
    requires forall j :: 0 <= j < |ms| ==> Encodable(ms[j])
    requires data == EncodeCollection(name, ms) + trailing
    ensures At(data, 0, EncodeString(name))
    ensures At(data, 4 + k, EncodeInt32(n))
    ensures At(data, 8 + k, EncodeRecords(ms))
  {
    var whole := EncodeCollection(name, ms);
    assert At(data, 0, whole) by {
      assert data[0..|whole|] == whole;
      AtSlice(data, 0, whole);
    }
    AtSplit3(data, 0, EncodeString(name), EncodeInt32(n), EncodeRecords(ms));
  }

  lemma {:induction false} CollectionReads(data: seq<byte>, name: seq<byte>, ms: seq<MeshSource>, k: nat, n: nat)
    requires k < 0x8000_0000 && n < 0x8000_0000 && k == |name| && n == |ms|
    requires forall j :: 0 <= j < |ms| ==> Encodable(ms[j])
    requires At(data, 0, EncodeString(name))
    requires At(data, 4 + k, EncodeInt32(n))
    requires At(data, 8 + k, EncodeRecords(ms))
    ensures DecodeCollection(data) == Decoded(EntriesOf(ms), None)
  {
    var c := Open(data);
    var c1 := c.(offset := c.offset + 4 + |name|);
    var c2 := c1.(offset := c1.offset + 4);
    ReadUtf8StringRoundTrip(c, name);
    ReadInt32RoundTrip(c1, n);
    RecordsRoundTrip(c2, ms, n);
    CollectionParts(data, c1, c2, name, n);
  }

  /** Decoding an encoded collection, followed by any bytes at all, yields every
      authored mesh in order and no failure: trailing bytes are ignored. */
  lemma {:induction false} CollectionRoundTrip(name: seq<byte>, ms: seq<MeshSource>, trailing: seq<byte>)
    requires |name| < 0x8000_0000 && |ms| < 0x8000_0000
    requires forall k :: 0 <= k < |ms| ==> Encodable(ms[k])
    ensures DecodeCollection(EncodeCollection(name, ms) + trailing) == Decoded(EntriesOf(ms), None)
  {
    var data := EncodeCollection(name, ms) + trailing;
    var k, n := |name|, |ms|;
    CollectionLayout(data, name, ms, trailing, k, n);
    CollectionReads(data, name, ms, k, n);
  }

  /** Parsing an encoded collection stores, under each id, the mesh of the last record
      carrying that id, and reports no failure. */
  lemma {:induction false} ParseStoresLastMeshPerId(name: seq<byte>, ms: seq<MeshSource>, trailing: seq<byte>,
                                                    store: Store, i: nat)
    requires |name| < 0x8000_0000 && |ms| < 0x8000_0000
    requires forall k :: 0 <= k < |ms| ==> Encodable(ms[k])
    requires i < |ms| && forall j :: i < j < |ms| ==> ms[j].id != ms[i].id
    ensures ParseMeshCollection(EncodeCollection(name, ms) + trailing, store).failure == None
    ensures ms[i].id in ParseMeshCollection(EncodeCollection(name, ms) + trailing, store).store
    ensures ParseMeshCollection(EncodeCollection(name, ms) + trailing, store).store[ms[i].id] == MeshOf(ms[i])
  {
    var es := EntriesOf(ms);
    CollectionRoundTrip(name, ms, trailing);
    AssignLastWins(store, es, i);
  }

  // ---------------------------------------------------------------------------
  // Streams cut short: fewer records arrive than the count declares.

  lemma {:induction false} RecordsLength(ms: seq<MeshSource>, r: nat)
    requires |ms| > 0
    requires forall k :: 0 <= k < |ms| ==> Encodable(ms[k])
    requires r == |EncodeRecord(ms[0])|
    ensures |EncodeRecords(ms)| == r + |EncodeRecords(ms[1..])|
  {
  }

  lemma {:induction false} ShortEnd(c: Cursor, n: nat)
    requires 0 < n && |c.data| < c.offset + 8
    ensures DecodeRecords(c, n).entries == []
    ensures DecodeRecords(c, n).failure.Some?
  {
    assert !InBounds(c, 8);
  }

  lemma {:induction false} ShortStep(c: Cursor, ps: seq<MeshSource>, n: nat, r: nat)
    requires 0 < |ps| < n
    requires forall k :: 0 <= k < |ps| ==> Encodable(ps[k])
    requires r == |EncodeRecord(ps[0])|
    requires At(c.data, c.offset, EncodeRecords(ps))
    requires DecodeRecords(c.(offset := c.offset + r), n - 1).entries == EntriesOf(ps[1..])
    requires DecodeRecords(c.(offset := c.offset + r), n - 1).failure.Some?
    ensures DecodeRecords(c, n).entries == EntriesOf(ps)
    ensures DecodeRecords(c, n).failure.Some?
  {
    var c1 := c.(offset := c.offset + r);
    RecordsLayout(c.data, c.offset, ps, r);
    RecordRoundTrip(c, ps[0]);
    DecodeRecordsStep(c, n, Read(EntryOf(ps[0]), c1));
    assert EntriesOf(ps) == [EntryOf(ps[0])] + EntriesOf(ps[1..]);
  }

  /** Encoded records followed by fewer than 8 bytes, read with a larger count: the
      records all decode, then the next read fails. */
  lemma {:induction false} RecordsThenShort(c: Cursor, ps: seq<MeshSource>, n: nat)
    requires |ps| < n
    requires forall k :: 0 <= k < |ps| ==> Encodable(ps[k])
    requires At(c.data, c.offset, EncodeRecords(ps))
    requires |c.data| < c.offset + |EncodeRecords(ps)| + 8
    ensures DecodeRecords(c, n).entries == EntriesOf(ps)
    ensures DecodeRecords(c, n).failure.Some?
    decreases |ps|
  {
    if |ps| == 0 {
      ShortEnd(c, n);
    } else {
      var r := |EncodeRecord(ps[0])|;
      RecordsLength(ps, r);
      RecordsLayout(c.data, c.offset, ps, r);
      RecordsThenShort(c.(offset := c.offset + r), ps[1..], n - 1);
      ShortStep(c, ps, n, r);
    }
  }

  /** A collection whose count `n` promises more records than the `ps` that arrive
      before the data ends (fewer than 8 further bytes): decoding yields exactly the
      records that arrived, and reports a failure. */
  lemma {:induction false} TruncatedCollection(name: seq<byte>, n: nat, ps: seq<MeshSource>, tail: seq<byte>)
    requires |name| < 0x8000_0000 && |ps| < n < 0x8000_0000
    requires forall k :: 0 <= k < |ps| ==> Encodable(ps[k])
    requires |tail| < 8
    ensures DecodeCollection(EncodeString(name) + (EncodeInt32(n) + (EncodeRecords(ps) + tail))).entries
         == EntriesOf(ps)
    ensures DecodeCollection(EncodeString(name) + (EncodeInt32(n) + (EncodeRecords(ps) + tail))).failure.Some?
  {
    var data := EncodeString(name) + (EncodeInt32(n) + (EncodeRecords(ps) + tail));
    var k := |name|;
    assert At(data, 0, data) by {
      assert data[0..|data|] == data;
      AtSlice(data, 0, data);
    }
    AtSplit3(data, 0, EncodeString(name), EncodeInt32(n), EncodeRecords(ps) + tail);
    AtSplit(data, 8 + k, EncodeRecords(ps), tail);
    var c := Open(data);
    var c1 := c.(offset := c.offset + 4 + k);
    var c2 := c1.(offset := c1.offset + 4);
    ReadUtf8StringRoundTrip(c, name);
    ReadInt32RoundTrip(c1, n);
    RecordsThenShort(c2, ps, n);
    CollectionParts(data, c1, c2, name, n);
  }

  /** Parsing such a cut-short collection adds exactly the ids of the records that
      arrived, keeps every other stored mesh, and reports the failure. */
  lemma {:induction false} ParseTruncatedCollection(name: seq<byte>, n: nat, ps: seq<MeshSource>, tail: seq<byte>,
                                                    store: Store)
    requires |name| < 0x8000_0000 && |ps| < n < 0x8000_0000
    requires forall k :: 0 <= k < |ps| ==> Encodable(ps[k])
    requires |tail| < 8
    ensures ParseMeshCollection(EncodeString(name) + (EncodeInt32(n) + (EncodeRecords(ps) + tail)), store).store.Keys
         == store.Keys + Ids(EntriesOf(ps))
    ensures forall key :: key in store && key !in Ids(EntriesOf(ps)) ==>
      ParseMeshCollection(EncodeString(name) + (EncodeInt32(n) + (EncodeRecords(ps) + tail)), store).store[key]
        == store[key]
    ensures ParseMeshCollection(EncodeString(name) + (EncodeInt32(n) + (EncodeRecords(ps) + tail)), store).failure.Some?
  {
    TruncatedCollection(name, n, ps, tail);
  }
}

=== FILE: model_renderer.dfy ===
/** The progressive drawing scheduler of src/ModelRenderer.ts: each animation frame asks
    the camera whether it moved; while it moves nothing is drawn progressively; once it
    stops, the render batches are added to the scene one at a time, each staying for two
    frames, and the previous one is removed before the next is added. Loading a model
    appends its batches and restarts from the first batch.

    A batch is named by its index in `_renderBatches`; the scene is the set of indices of
    the batches added to it (the hemisphere light is left out). Building, disposing and
    drawing are recorded as effects in the order the source performs them. */
module ModelRenderer {
  import opened Wrappers
  import opened RenderBatch
  import opened CameraMotion
  import Loader

  /** Where the `_drawProgressively` generator is suspended. */
  datatype Position =
    | Unstarted                 // created, `next()` not yet called
    | FirstYield(index: nat)    // batch `index` was just added, at the first `yield`
    | SecondYield(index: nat)   // at the second `yield`

  /** What the scheduler does to the outside world. */
  datatype Effect =
    | Show(index: nat)   // build batch `index`, make it the current batch, add it to the scene
    | Hide(index: nat)   // remove batch `index` from the scene and dispose it
    | Clear              // `_drawEveryFrame`: clear the drawing buffer

  /** The renderer's scheduling state. */
  datatype Renderer<T> = Renderer(
    batches: seq<Batch>,             // `_renderBatches`
    current: Option<nat>,            // `_currentRenderBatch`
    scene: set<nat>,                 // the batches in `_scene`
    camera: Motion<T>,               // `_lastCameraTransform`, `_lastCameraMovedStatus`
    coroutine: Option<Position>)     // `_drawCoroutine`

  /** A state and the effects that led to it. */
  datatype Tick<T> = Tick(renderer: Renderer<T>, effects: seq<Effect>)

  /** The constructor: no batches, nothing current, an empty scene, no generator. */
  function Constructed<T>(t: T): Renderer<T> {
    Renderer([], None, {}, AtRest(t), None)
  }

  // ---------------------------------------------------------------------------
  // The scene as the effects leave it

  /** The scene after one effect: `Show` adds a batch, `Hide` removes it. */
  function ApplyEffect(scene: set<nat>, e: Effect): set<nat> {
    match e
    case Show(i) => scene + {i}
    case Hide(i) => scene - {i}
    case Clear => scene
  }

  /** The scene after the effects, in order. */
  function ApplyEffects(scene: set<nat>, es: seq<Effect>): set<nat>
    decreases |es|
  {
    if |es| == 0 then scene else ApplyEffects(ApplyEffect(scene, es[0]), es[1..])
  }

  lemma {:induction false} ApplyEffectsAppend(scene: set<nat>, a: seq<Effect>, b: seq<Effect>)
    ensures ApplyEffects(scene, a + b) == ApplyEffects(ApplyEffects(scene, a), b)
    decreases |a|
  {
    if |a| > 0 {
      assert (a + b)[1..] == a[1..] + b;
      ApplyEffectsAppend(ApplyEffect(scene, a[0]), a[1..], b);
    } else {
      assert a + b == b;
    }
  }

  // ---------------------------------------------------------------------------
  // Operations

  /** `_drawProgressivelyAbort`: if there is a current batch, remove it from the scene
      (whether or not it is still there), dispose it, and forget it. */
  function Abort<T>(r: Renderer<T>): (k: Tick<T>)
    ensures k.renderer.current == None
    ensures k.renderer.batches == r.batches && k.renderer.camera == r.camera
    ensures k.renderer.coroutine == r.coroutine
    ensures k.renderer.scene <= r.scene
    ensures r.current.Some? ==> r.current.value !in k.renderer.scene
    ensures |k.effects| <= 1
  {
    match r.current
    case None => Tick(r, [])
    case Some(i) => Tick(r.(current := None, scene := r.scene - {i}), [Hide(i)])
  }

  /** Build batch `i`, make it current and add it to the scene, suspending at the first
      `yield`. */
  function ShowBatch<T>(r: Renderer<T>, i: nat): (k: Tick<T>)
    ensures k.renderer.current == Some(i) && i in k.renderer.scene
    ensures k.renderer.coroutine == Some(FirstYield(i))
    ensures k.renderer.batches == r.batches && k.renderer.camera == r.camera
  {
    Tick(r.(current := Some(i), scene := r.scene + {i}, coroutine := Some(FirstYield(i))), [Show(i)])
  }

  /** One `next()` of the generator suspended at `p`. The generator reads the length of
      `_renderBatches` each time round its loop, so batches appended meanwhile count. It
      returns (the coroutine becomes null) when there is no batch to add. */
  function Resume<T>(r: Renderer<T>, p: Position): (k: Tick<T>)
    ensures k.renderer.batches == r.batches && k.renderer.camera == r.camera
    ensures k.renderer.coroutine.Some? ==> k.renderer.coroutine.value.FirstYield? || k.renderer.coroutine.value.SecondYield?
    ensures forall i: nat :: Show(i) in k.effects ==> i < |r.batches|
  {
    match p
    case Unstarted =>
      if |r.batches| == 0 then Tick(r.(coroutine := None), []) else ShowBatch(r, 0)
    case FirstYield(i) =>
      Tick(r.(coroutine := Some(SecondYield(i))), [])
    case SecondYield(i) =>
      var hidden := r.(scene := r.scene - {i});
      if i + 1 < |r.batches| then
        var shown := ShowBatch(hidden, i + 1);
        Tick(shown.renderer, [Hide(i)] + shown.effects)
      else
        Tick(hidden.(coroutine := None), [Hide(i)])
  }

  /** `_darwSingleFrame` with the camera at `t`. While the camera moves: abort, clear and
      drop the generator. On the frame it stops: abort, clear and start a new generator.
      Then, if there is a generator, advance it by one step. */
  function Frame<T(==)>(r: Renderer<T>, t: T): (k: Tick<T>)
    ensures k.renderer.batches == r.batches
    ensures k.renderer.camera.last == t
    ensures forall i: nat :: Show(i) in k.effects ==> i < |r.batches|
  {
    FrameDelayed(r, t, |r.batches| + 1)
  }

  /** `Frame` behind a countdown that starts above zero, so that a mention of `Frame`
      does not by itself unfold the whole step; `FrameDelayedValue` unfolds it. */
  function FrameDelayed<T(==)>(r: Renderer<T>, t: T, steps: nat): (k: Tick<T>)
    ensures k.renderer.batches == r.batches
    ensures k.renderer.camera.last == t
    ensures forall i: nat :: Show(i) in k.effects ==> i < |r.batches|
    decreases steps
  {
    if steps > 0 then FrameDelayed(r, t, steps - 1)
    else
      var o := Observe(r.camera, t);
      var observed := r.(camera := o.next);
      if o.moving then
        var a := Abort(observed);
        Tick(a.renderer.(coroutine := None), a.effects + [Clear])
      else
        var s :=
          if o.justStop then
            var a := Abort(observed);
            Tick(a.renderer.(coroutine := Some(Unstarted)), a.effects + [Clear])
          else
            Tick(observed, []);
        match s.renderer.coroutine
        case None => s
        case Some(p) =>
          var n := Resume(s.renderer, p);
          Tick(n.renderer, s.effects + n.effects)
  }

  lemma {:induction false} FrameDelayedValue<T>(r: Renderer<T>, t: T, steps: nat)
    ensures FrameDelayed(r, t, steps) == FrameDelayed(r, t, 0)
    decreases steps
  {
    if steps > 0 {
      FrameDelayedValue(r, t, steps - 1);
    }
  }

  /** `load` once the loader has fetched the model: append the new batches, abort,
      clear, and start a new generator, which begins again at the first batch. */
  function Load<T>(r: Renderer<T>, added: seq<Batch>): (k: Tick<T>)
    ensures k.renderer.batches == r.batches + added
    ensures k.renderer.coroutine == Some(Unstarted)
    ensures k.renderer.camera == r.camera
    ensures |k.effects| >= 1 && k.effects[|k.effects| - 1] == Clear
  {
    var a := Abort(r.(batches := r.batches + added));
    Tick(a.renderer.(coroutine := Some(Unstarted)), a.effects + [Clear])
  }

  /** `load` with the loader's mesh instances: the batches appended are
      `getRenderBatches` of them. */
  function LoadInstances<T>(r: Renderer<T>, ms: seq<MeshInstance>): (k: Tick<T>)
    ensures |k.renderer.batches| >= |r.batches| + 1
  {
    Loader.RenderBatchesValid(ms);
    Load(r, Loader.RenderBatches(ms))
  }

  /** Consecutive frames with the camera at `ts[0]`, `ts[1]`, ...: the final state and
      each frame's effects. */
  function Run<T(==)>(r: Renderer<T>, ts: seq<T>): (k: (Renderer<T>, seq<seq<Effect>>))
    ensures |k.1| == |ts|
    ensures k.0.batches == r.batches
    decreases |ts|
  {
    if |ts| == 0 then (r, [])
    else
      var f := Frame(r, ts[0]);
      var rest := Run(f.renderer, ts[1..]);
      (rest.0, [f.effects] + rest.1)
  }
}

=== FILE: progressive_drawing.dfy ===
/** Properties of the progressive drawing scheduler: at most one batch is on the scene
    at any time, the scene changes exactly as the emitted effects say, a steady camera
    shows every batch in turn for two frames each, a moving camera stops the drawing, and
    a camera that stops, or a load, restarts it from the first batch. */
module ProgressiveDrawing {
  import opened Wrappers
  import opened RenderBatch
  import opened CameraMotion
  import opened ModelRenderer
  import Loader

  /** The scheduler's invariant: while the generator is suspended at a batch, that batch
      exists, is the current one and is the only one on the scene; otherwise the scene is
      empty. */
  predicate Valid<T>(r: Renderer<T>) {
    match r.coroutine
    case Some(FirstYield(j)) => j < |r.batches| && r.current == Some(j) && r.scene == {j}
    case Some(SecondYield(j)) => j < |r.batches| && r.current == Some(j) && r.scene == {j}
    case _ => r.scene == {}
  }

  /** The effects of `_drawProgressivelyAbort`. */
  function AbortEffects<T>(r: Renderer<T>): seq<Effect> {
    if r.current.Some? then [Hide(r.current.value)] else []
  }

  lemma {:induction false} ConstructedValid<T>(t: T)
    ensures Valid(Constructed(t)) && Constructed(t).scene == {}
  {
  }

  /** At most one batch is on the scene, and it is the current one. */
  lemma {:induction false} OneBatchAtATime<T>(r: Renderer<T>)
    requires Valid(r)
    ensures |r.scene| <= 1
    ensures forall i :: i in r.scene ==> i < |r.batches| && r.current == Some(i)
  {
    if r.coroutine.Some? && !r.coroutine.value.Unstarted? {
      var j := r.coroutine.value.index;
      assert r.scene == {j};
    }
  }

  lemma {:induction false} FrameKeepsValid<T>(r: Renderer<T>, t: T)
    requires Valid(r)
    ensures Valid(Frame(r, t).renderer)
  {
    FrameDelayedValue(r, t, |r.batches| + 1);
  }

  lemma {:induction false} LoadKeepsValid<T>(r: Renderer<T>, added: seq<Batch>)
    requires Valid(r)
    ensures Valid(Load(r, added).renderer)
    ensures Load(r, added).renderer.scene == {}
    ensures Load(r, added).effects == AbortEffects(r) + [Clear]
  {
    if r.current.Some? {
      var j := r.current.value;
      assert r.scene <= {j};
    }
  }

  // ---------------------------------------------------------------------------
  // The scene follows the effects

  lemma {:induction false} AbortSceneFollowsEffects<T>(r: Renderer<T>)
    ensures Abort(r).renderer.scene == ApplyEffects(r.scene, Abort(r).effects)
    ensures Abort(r).effects == AbortEffects(r)
  {
    if r.current.Some? {
      assert ApplyEffects(r.scene, [Hide(r.current.value)]) == ApplyEffects(r.scene - {r.current.value}, []);
    }
  }

  lemma {:induction false} ResumeSceneFollowsEffects<T>(r: Renderer<T>, p: Position)
    ensures Resume(r, p).renderer.scene == ApplyEffects(r.scene, Resume(r, p).effects)
  {
    var k := Resume(r, p);
    match p
    case Unstarted =>
      if |r.batches| > 0 {
        assert ApplyEffects(r.scene, [Show(0)]) == ApplyEffects(r.scene + {0}, []);
      }
    case FirstYield(i) =>
    case SecondYield(i) =>
      var hidden := r.scene - {i};
      assert ApplyEffects(r.scene, [Hide(i)]) == ApplyEffects(hidden, []);
      if i + 1 < |r.batches| {
        ApplyEffectsAppend(r.scene, [Hide(i)], [Show(i + 1)]);
        assert ApplyEffects(hidden, [Show(i + 1)]) == ApplyEffects(hidden + {i + 1}, []);
        assert [Hide(i)] + [Show(i + 1)] == k.effects;
      }
  }

  /** Every change a frame makes to the scene is announced by its effects, in order. */
  lemma {:induction false} FrameSceneFollowsEffects<T>(r: Renderer<T>, t: T)
    ensures Frame(r, t).renderer.scene == ApplyEffects(r.scene, Frame(r, t).effects)
  {
    FrameDelayedValue(r, t, |r.batches| + 1);
    var o := Observe(r.camera, t);
    var observed := r.(camera := o.next);
    var a := Abort(observed);
    AbortSceneFollowsEffects(observed);
    ApplyEffectsAppend(r.scene, a.effects, [Clear]);
    assert ApplyEffects(a.renderer.scene, [Clear]) == ApplyEffects(a.renderer.scene, []);
    if !o.moving {
      var s :=
        if o.justStop then Tick(a.renderer.(coroutine := Some(Unstarted)), a.effects + [Clear])
        else Tick(observed, []);
      assert s.renderer.scene == ApplyEffects(r.scene, s.effects);
      if s.renderer.coroutine.Some? {
        ResumeSceneFollowsEffects(s.renderer, s.renderer.coroutine.value);
        ApplyEffectsAppend(r.scene, s.effects, Resume(s.renderer, s.renderer.coroutine.value).effects);
      }
    }
  }

  lemma {:induction false} LoadSceneFollowsEffects<T>(r: Renderer<T>, added: seq<Batch>)
    ensures Load(r, added).renderer.scene == ApplyEffects(r.scene, Load(r, added).effects)
  {
    var a := Abort(r.(batches := r.batches + added));
    AbortSceneFollowsEffects(r.(batches := r.batches + added));
    ApplyEffectsAppend(r.scene, a.effects, [Clear]);
    assert ApplyEffects(a.renderer.scene, [Clear]) == ApplyEffects(a.renderer.scene, []);
  }

  // ---------------------------------------------------------------------------
  // Camera-driven frames

  /** A frame in which the camera moved: abort, clear, and no generator afterwards. */
  lemma {:induction false} MovingFrameStopsDrawing<T>(r: Renderer<T>, t: T)
    requires Valid(r) && t != r.camera.last
    ensures Frame(r, t).effects == AbortEffects(r) + [Clear]
    ensures Frame(r, t).renderer.coroutine == None
    ensures Frame(r, t).renderer.current == None
    ensures Frame(r, t).renderer.scene == {}
    ensures Frame(r, t).renderer.camera == Motion(t, true)
  {
    FrameDelayedValue(r, t, |r.batches| + 1);
    if r.current.Some? {
      var j := r.current.value;
      assert r.scene <= {j};
    }
  }

  /** The first frame with the camera still after it moved: abort, clear, and start
      drawing again from batch 0, which is added in this same frame. */
  lemma {:induction false} StopRestartsFromFirstBatch<T>(r: Renderer<T>, t: T)
    requires Valid(r) && t == r.camera.last && r.camera.wasMoving
    ensures Frame(r, t).effects == AbortEffects(r) + [Clear] + (if |r.batches| > 0 then [Show(0)] else [])
    ensures Frame(r, t).renderer.coroutine == (if |r.batches| > 0 then Some(FirstYield(0)) else None)
    ensures Frame(r, t).renderer.scene == (if |r.batches| > 0 then {0} else {})
    ensures Frame(r, t).renderer.camera == AtRest(t)
  {
    FrameDelayedValue(r, t, |r.batches| + 1);
    if r.current.Some? {
      var j := r.current.value;
      assert r.scene <= {j};
    }
  }

  /** A still camera and no generator: the frame changes nothing. */
  lemma {:induction false} IdleFrameDoesNothing<T>(r: Renderer<T>, t: T)
    requires r.camera == AtRest(t) && r.coroutine == None
    ensures Frame(r, t) == Tick(r, [])
  {
    FrameDelayedValue(r, t, |r.batches| + 1);
  }

  // ---------------------------------------------------------------------------
  // A steady camera

  /** Where the generator is suspended `f` frames after it was created, with `n`
      batches and a camera that does not move. */
  function Phase(n: nat, f: nat): Option<Position> {
    if f == 0 then Some(Unstarted)
    else
      var j := (f - 1) / 2;
      if j >= n then None
      else if f % 2 == 1 then Some(FirstYield(j))
      else Some(SecondYield(j))
  }

  /** The effects of frame `f` (counting from 0) after the generator was created, with
      `n` batches and a camera that does not move: batch 0 is added in frame 0; batch
      `j` is removed in frame 2j + 2, together with the addition of batch j + 1. */
  function Expected(n: nat, f: nat): seq<Effect> {
    if f == 0 then (if n == 0 then [] else [Show(0)])
    else if f % 2 == 1 then []
    else
      var j := f / 2 - 1;
      if j >= n then []
      else if j + 1 < n then [Hide(j), Show(j + 1)]
      else [Hide(j)]
  }

  /** Batch `j` is added in frame 2j and removed in frame 2j + 2, and in no other frame. */
  lemma {:induction false} ExpectedAt(n: nat, f: nat, j: nat)
    ensures Show(j) in Expected(n, f) <==> j < n && f == 2 * j
    ensures Hide(j) in Expected(n, f) <==> j < n && f == 2 * j + 2
  {
  }

  /** One frame with a steady camera moves the generator one phase on. */
  lemma {:induction false} SteadyStep<T>(r: Renderer<T>, t: T, f: nat)
    requires Valid(r) && r.camera == AtRest(t) && r.coroutine == Phase(|r.batches|, f)
    ensures Frame(r, t).effects == Expected(|r.batches|, f)
    ensures Frame(r, t).renderer.coroutine == Phase(|r.batches|, f + 1)
    ensures Frame(r, t).renderer.camera == AtRest(t)
    ensures Valid(Frame(r, t).renderer)
  {
    FrameDelayedValue(r, t, |r.batches| + 1);
    var n := |r.batches|;
    if f > 0 && (f - 1) / 2 < n && f % 2 == 0 {
      var j := (f - 1) / 2;
      assert f / 2 - 1 == j;
      assert Phase(n, f + 1) == (if j + 1 < n then Some(FirstYield(j + 1)) else None);
    }
  }

  /** Every element of `ts` is `t`. */
  ghost predicate AllAt<T>(ts: seq<T>, t: T) {
    forall i :: 0 <= i < |ts| ==> ts[i] == t
  }

  /** The effects of frames `f`, `f + 1`, ..., `f + k - 1`. */
  function ExpectedTrace(n: nat, f: nat, k: nat): (es: seq<seq<Effect>>)
    ensures |es| == k
    decreases k
  {
    if k == 0 then [] else [Expected(n, f)] + ExpectedTrace(n, f + 1, k - 1)
  }

  lemma {:induction false} ExpectedTraceAt(n: nat, f: nat, k: nat, i: nat)
    requires i < k
    ensures ExpectedTrace(n, f, k)[i] == Expected(n, f + i)
    decreases k
  {
    if i > 0 {
      ExpectedTraceAt(n, f + 1, k - 1, i - 1);
    }
  }

  lemma {:induction false} SteadyRun<T>(r: Renderer<T>, t: T, ts: seq<T>, f: nat)
    requires Valid(r) && r.camera == AtRest(t) && r.coroutine == Phase(|r.batches|, f)
    requires AllAt(ts, t)
    ensures Run(r, ts).1 == ExpectedTrace(|r.batches|, f, |ts|)
    ensures Run(r, ts).0.coroutine == Phase(|r.batches|, f + |ts|)
    ensures Valid(Run(r, ts).0)
    decreases |ts|
  {
    if |ts| > 0 {
      assert ts[0] == t;
      SteadyStep(r, t, f);
      var rest := ts[1..];
      assert AllAt(rest, t) by {
        forall i | 0 <= i < |rest| ensures rest[i] == t {
          assert rest[i] == ts[i + 1];
        }
      }
      SteadyRun(Frame(r, t).renderer, t, rest, f + 1);
    }
  }

  /** With the camera still from the frame a generator is created on, frame `i` has the
      effects `Expected(n, i)`; after 2n + 1 frames the generator has returned and the
      scene is empty. */
  lemma {:induction false} SteadyCameraDrawsEveryBatchInTurn<T>(r: Renderer<T>, t: T, ts: seq<T>)
    requires Valid(r) && r.camera == AtRest(t) && r.coroutine == Some(Unstarted)
    requires AllAt(ts, t)
    ensures forall i :: 0 <= i < |ts| ==> Run(r, ts).1[i] == Expected(|r.batches|, i)
    ensures |ts| >= 2 * |r.batches| + 1 ==> Run(r, ts).0.coroutine == None && Run(r, ts).0.scene == {}
  {
    SteadyRun(r, t, ts, 0);
    forall i | 0 <= i < |ts| ensures Run(r, ts).1[i] == Expected(|r.batches|, i) {
      ExpectedTraceAt(|r.batches|, 0, |ts|, i);
    }
  }

  // ---------------------------------------------------------------------------
  // Loading

  /** After a load with the camera still, the next frame adds batch 0 of all batches,
      old and new: the drawing starts over rather than continuing with the new ones. */
  lemma {:induction false} LoadRestartsFromFirstBatch<T>(r: Renderer<T>, ms: seq<MeshInstance>, t: T)
    requires Valid(r) && r.camera == AtRest(t)
    ensures LoadInstances(r, ms).renderer.batches == r.batches + Loader.RenderBatches(ms)
    ensures LoadInstances(r, ms).effects == AbortEffects(r) + [Clear]
    ensures Frame(LoadInstances(r, ms).renderer, t).effects == [Show(0)]
    ensures Frame(LoadInstances(r, ms).renderer, t).renderer.coroutine == Some(FirstYield(0))
  {
    var loaded := LoadInstances(r, ms).renderer;
    FrameDelayedValue(loaded, t, |loaded.batches| + 1);
    LoadKeepsValid(r, Loader.RenderBatches(ms));
  }
}

=== FILE: render_batch.dfy ===
/** A render batch's bookkeeping (src/RenderBatch.ts): the instances it holds, in the
    order they were added, and the running total of their effective triangle costs,
    under two caps: at most 1000 instances, and a total below 1,000,000. */
module RenderBatch {

  /** The fields of a mesh instance (the `MeshInstance` shape) the packer and the loader
      read. Bounding box and transform only matter to geometry building. */
  datatype MeshInstance = MeshInstance(id: string, materialId: string, meshId: seq<string>, triangleCount: int)

  const MaxObjectsCount: int := 1_000
  const MaxTrianglesCount: int := 1_000_000

  /** The cost charged for an instance that declares no triangles. */
  const EmptyMeshCost: int := 1_000

  /** The effective triangle cost of an instance: its triangle count, or 1000 when the
      count is zero. */
  function Cost(m: MeshInstance): int {
    if m.triangleCount == 0 then EmptyMeshCost else m.triangleCount
  }

  /** `_meshInstances` and `_triangleCount`. */
  datatype Batch = Batch(instances: seq<MeshInstance>, triangleCount: int)

  /** A new batch: no instances, total 0. */
  const Fresh: Batch := Batch([], 0)

  /** The total cost of `ms`, summed from the front. */
  function TotalCost(ms: seq<MeshInstance>): int
    decreases |ms|
  {
    if |ms| == 0 then 0 else Cost(ms[0]) + TotalCost(ms[1..])
  }

  lemma {:induction false} TotalCostAppend(ms: seq<MeshInstance>, m: MeshInstance)
    ensures TotalCost(ms + [m]) == TotalCost(ms) + Cost(m)
    decreases |ms|
  {
    if |ms| > 0 {
      assert (ms + [m])[1..] == ms[1..] + [m];
      TotalCostAppend(ms[1..], m);
    }
  }

  /** The batch invariant: the total is the sum of the held instances' costs, and both
      caps hold. */
  predicate Valid(b: Batch) {
    && b.triangleCount == TotalCost(b.instances)
    && |b.instances| <= MaxObjectsCount
    && b.triangleCount < MaxTrianglesCount
  }

  /** Whether `tryAdd` returned true, and the batch afterwards. */
  datatype Added = Added(accepted: bool, batch: Batch)

  /** `tryAdd`: refuses when the batch already holds 1000 instances or when the new total
      would reach 1,000,000; otherwise appends the instance and adds its cost. */
  function TryAdd(b: Batch, m: MeshInstance): (r: Added)
    ensures !r.accepted <==> |b.instances| >= MaxObjectsCount || b.triangleCount + Cost(m) >= MaxTrianglesCount
    ensures !r.accepted ==> r.batch == b
    ensures r.accepted ==> r.batch.instances == b.instances + [m]
    ensures r.accepted ==> r.batch.triangleCount == b.triangleCount + Cost(m)
  {
    var cost := Cost(m);
    if |b.instances| >= MaxObjectsCount || b.triangleCount + cost >= MaxTrianglesCount then
      Added(false, b)
    else
      Added(true, Batch(b.instances + [m], b.triangleCount + cost))
  }

  lemma {:induction false} FreshValid()
    ensures Valid(Fresh)
  {
  }

  /** `tryAdd` keeps the invariant, whatever it decides. */
  lemma {:induction false} TryAddPreservesValid(b: Batch, m: MeshInstance)
    requires Valid(b)
    ensures Valid(TryAdd(b, m).batch)
  {
    if TryAdd(b, m).accepted {
      TotalCostAppend(b.instances, m);
    }
  }

  /** A new batch accepts an instance exactly when the instance's own cost is below
      1,000,000; so a heavier instance fits in no batch at all. */
  lemma {:induction false} FreshAcceptsIff(m: MeshInstance)
    ensures TryAdd(Fresh, m).accepted <==> Cost(m) < MaxTrianglesCount
    ensures TryAdd(Fresh, m).accepted ==> TryAdd(Fresh, m).batch == Batch([m], Cost(m))
  {
  }
}

=== FILE: wrappers.dfy ===
/** Failure-compatible datatypes shared by the reader, the decoder and the scheduler. */
module Wrappers {

  /** A value that may be absent (the source's `null`). */
  datatype Option<+T> = None | Some(value: T)

  /** The outcome of an operation that can fail; usable with `:-`. */
  datatype Result<+T, +E> = Ok(value: T) | Err(error: E) {

    predicate IsFailure() {
      Err?
    }

    function PropagateFailure<U>(): Result<U, E>
      requires Err?
    {
      Err(error)
    }

    function Extract(): T
      requires Ok?
    {
      value
    }
  }
}
